=== FILE: README.md ===
# LwM2M client object layer: text/opaque codec, IPSO sensors, Server object

This project models three pieces of the object layer of an LwM2M client and
proves properties of that model in Dafny.

- **The Plain Text and Opaque content formats** (sections 6.4.1 and 6.4.2 of
  the OMA LwM2M 1.0 Technical Specification), in module `TextOpaque`:
  - one typed resource value is serialized to a wire buffer;
  - one payload is deserialized into a single entry addressed by the base URI.

  Opaque values written in the text format are Base64-encoded with the classic
  alphabet (section 4 of RFC 4648). Module `Base64` specifies that encoding,
  together with a decoder for the round-trip property. Module `Decimal` gives
  the decimal text of integers and object links, and a parser that reads it
  back.
- **The generic IPSO sensor adapter**, in modules `IpsoResources` and
  `IpsoSensor`. It covers:
  - the resource tables of each sensor kind;
  - the value-domain check;
  - the two update rules: the digital rule with counter and the min/max range
    rule;
  - the data callback the router invokes for Read, Write, Execute and Free;
  - the sensor handle;
  - the add, remove and update API.

  A kind's object and its instances are modelled together as one map from kind
  to object, under the invariant `Valid`: only supported kinds are present, and
  each kind has at least one instance.
- **The Server object adapter**, in module `ServerObject`:
  - Read maps resources onto the fields of the client's server sessions;
  - Write validates each value before storing it and stops at the first
    failure;
  - Execute refuses arguments, and refuses Disable before registration.

  The calls into the registration machinery are returned as an event
  sequence. These are the setting-changed notifications and the
  registration-update requests.

Floats are `real`. Two float comparisons of the adapter go through
`ApproxEq`, an absolute tolerance of `FLT_EPSILON` (2^-23): the value check of
the boolean-like kinds, and the range rule's test of whether the value changed.
The digital rule tests for a difference of more than `FLT_EPSILON`
(`Rises`/`Falls`). The direction check and the min/max updates compare exactly,
and the digital state reads as true when the value is not 0. Operations are pure
functions that return their status, the new state and the events they raised.

## Model

| member | source | states |
|---|---|---|
| TextOpaque.TextSerialize | iowa/src/data/iowa_text_opaque.c:32-205 | Strings and core links are copied verbatim with their length, and the empty one becomes the null buffer. An empty opaque value gives the null buffer. A negative unsigned value fails with 5.00. A boolean is the one byte '1' or '0'. The result is 4.00 exactly for an undefined tag, and every other failure is 5.00. |
| TextOpaque.TextSerializeOpaqueIsBase64 | iowa/src/data/iowa_text_opaque.c:67-99 | A non-empty opaque value is written as a buffer of the RFC 4648 encoded size. That buffer decodes back to the value, so the 5.00 for an empty encoder result never occurs. |
| TextOpaque.TextSerializeIntegerRoundTrip | iowa/src/data/iowa_text_opaque.c:101-130 | A 64-bit integer, time or non-negative unsigned value fits the 32-byte scratch buffer. It is written as decimal text that parses back to the same number. |
| TextOpaque.TextSerializeObjectLink | iowa/src/data/iowa_text_opaque.c:177-198 | An object link is written as "objectId:instanceId", which never exceeds the 11-byte buffer. |
| TextOpaque.CommonDeserialize | iowa/src/data/iowa_text_opaque.c:207-259 | The result is 4.06 exactly when the base URI is absent or its resource id is the wildcard, and then there are no entries. Otherwise it is exactly one entry, with all four ids copied from the URI and the payload as its buffer. |
| TextOpaque.TextDeserialize | iowa/src/data/iowa_text_opaque.c:261-282 | The result is 4.06, with no entries, exactly when the base URI is absent or names every resource. Otherwise it is one entry tagged String, addressed by the base URI and holding the payload. |
| TextOpaque.OpaqueDeserialize | iowa/src/data/iowa_text_opaque.c:328-349 | The result is 4.06, with no entries, exactly when the base URI is absent or names every resource. Otherwise it is one entry tagged Opaque, addressed by the base URI and holding the payload. |
| TextOpaque.OpaqueSerialize | iowa/src/data/iowa_text_opaque.c:284-326 | The result is 4.06 exactly for tags other than undefined and opaque. Otherwise the bytes are copied verbatim, without Base64, with the same length. |
| TextOpaque.OpaqueRoundTrip | iowa/src/data/iowa_text_opaque.c:328-349 | Opaque-deserializing a payload and then opaque-serializing the entry gives back the payload. An empty payload gives an entry with an empty value. |
| TextOpaque.TextRoundTrip | iowa/src/data/iowa_text_opaque.c:261-282 | Text-deserializing a payload and then text-serializing the entry gives back the payload verbatim. |
| Base64.Encode | iowa/src/data/iowa_text_opaque.c:75-91 | The encoding of n bytes has 4·ceil(n/3) characters, the size the caller allocates, and is empty exactly for empty input. |
| Base64.DecodeEncode | iowa/src/data/iowa_text_opaque.c:75-99 | Decoding the encoding of any byte sequence gives the sequence back. The proof is by induction over 3-byte blocks, with the 1- and 2-byte tails as base cases. |
| Decimal.ParseIntText | iowa/src/data/iowa_text_opaque.c:108-130 | Parsing the decimal text of any integer gives the integer back. |
| Decimal.Int64TextLength | iowa/src/data/iowa_text_opaque.c:108-130 | The text of a 64-bit signed integer is at most 20 characters. |
| Decimal.ObjLinkTextLength | iowa/src/data/iowa_text_opaque.c:177-198 | The text of an object link is at most 11 characters. |
| IpsoResources.ResourceDesc | iowa/src/objects/iowa_object_ipso.c:41-211 | Counts of resource descriptors per kind: analog input 7, energy 4, direction 5, digital-like 3, presence 4, plain 7, plain with application type 8, unsupported 0. Each descriptor appears once. |
| IpsoResources.ResourceList | iowa/src/objects/iowa_object_ipso.c:213-448 | Resource counts of an instance per kind: analog 4+appType+2·range, energy 2+unit+appType, direction 4+appType, digital-like 2+appType, presence 3+appType, plain 4+unit+(cto∧appType)+2·range, unsupported 0. Every listed resource is distinct and is one the object declares. |
| IpsoResources.SensorTypesAreSupportedKinds | iowa/src/objects/iowa_object_ipso.c:945-980 | The kinds the removal API accepts are exactly the kinds that have resource descriptors. |
| IpsoSensor.CheckResourceValue | iowa/src/objects/iowa_object_ipso.c:650-682 | A direction value passes exactly when it is in [0, 360]. A boolean-like kind passes exactly when the value is approximately 0 or 1. Every other kind passes. The only failure is 4.06. |
| IpsoSensor.HandleRoundTrip | iowa/src/objects/iowa_object_ipso.c:927 | The handle type·65536 + id gives back the kind with a 16-bit right shift and the id with a 0xFFFF mask. |
| IpsoSensor.HandleIsValid | iowa/include/iowa_client.h:37 | The handle of a kind other than 0xFFFF is never the invalid sensor id 0xFFFFFFFF. |
| IpsoSensor.DigitalUpdateCounts | iowa/src/objects/iowa_object_ipso.c:697-720 | Over any sequence of values, the counter grows by exactly the number of rises larger than epsilon, and only when the instance has a counter. One state notification is raised per change larger than epsilon, and one counter notification per counted rise. Nothing but the counter changes. |
| IpsoSensor.DigitalSingleValue | iowa/src/objects/iowa_object_ipso.c:697-720 | For one value: a change of at most epsilon raises nothing. A larger change raises a state notification first. A rise on an instance with a counter adds exactly one pulse and one counter notification. |
| IpsoSensor.RangeUpdate | iowa/src/objects/iowa_object_ipso.c:722-768 | The measured minimum never rises and the maximum never falls. min ≤ max is preserved. Each bound is either untouched or one of the new values. No other field changes. |
| IpsoSensor.RangeUpdateCovers | iowa/src/objects/iowa_object_ipso.c:747-767 | On an instance with both measured bounds, every value that differs from the one before it lies inside the final [min, max]. |
| IpsoSensor.RangeSingleValue | iowa/src/objects/iowa_object_ipso.c:747-767 | For one value on a range instance: nothing happens unless the value differs from the current one. If it does, one or two notifications are raised, the first on the value resource the instance publishes. The value becomes the new minimum when it is below it, or else the new maximum when it is above it; otherwise the bounds stay. With both bounds, a differing value ends inside [min, max]. |
| IpsoSensor.UntilNul | iowa/src/objects/iowa_object_ipso.c:503 | The read length of a stored text is its strlen: the result is a prefix of the bytes, holds no 0 byte, and stops exactly at the first 0 when there is one. |
| IpsoSensor.ReadEntry | iowa/src/objects/iowa_object_ipso.c:478-550 | Reading an entry leaves its address and type tag as they were and fills in the field its resource names. The value resources read the current value. The digital state reads whether the value is not 0. The counter reads `max` truncated toward zero. The measured and range bounds read their own fields. The units and the application or sensor type read their stored text up to its first 0 byte. |
| IpsoSensor.ReadAll | iowa/src/objects/iowa_object_ipso.c:478-550 | Read answers every entry, in order, with the value of the resource it addresses on its own instance. |
| IpsoSensor.WritePrefix | iowa/src/objects/iowa_object_ipso.c:552-577 | Write gives 4.05 exactly when some entry is not the application type; otherwise it succeeds. It never changes the instance set, and it changes nothing but application types. |
| IpsoSensor.WriteThenReadAppType | iowa/src/objects/iowa_object_ipso.c:532-545 | A later Read of the application type or sensor type returns the written application type up to its first 0 byte, because the read length is its strlen; a value with no 0 byte reads back whole. |
| IpsoSensor.IpsoObjectCallback | iowa/src/objects/iowa_object_ipso.c:450-647 | The callback keeps the instance set. Read always succeeds and changes no instance. Free changes nothing and raises nothing. |
| IpsoSensor.ExecuteResultIsLastSticky | iowa/src/objects/iowa_object_ipso.c:579-622 | The Execute result is the outcome of the last entry that is the first one, carries an argument, or succeeds; an empty batch succeeds. So a 4.05 is only ever the result when the first entry gave it. |
| IpsoSensor.ResetEffects | iowa/src/objects/iowa_object_ipso.c:595-614 | Reset of min and max sets both bounds to the current value. The energy reset zeroes the value. The counter reset zeroes the counter. Any other resource is not executable, has no effect and raises nothing. |
| IpsoSensor.NewInstanceId | iowa/src/objects/iowa_object_ipso.c:908 | The id chosen is the lowest one not in use below 0xFFFF; no id is chosen only when all are taken. |
| IpsoSensor.AddSensor | iowa/src/objects/iowa_object_ipso.c:775-931 | Level control is refused with 4.02. A value failing the domain check gives 4.06 before anything is registered. A handle is returned exactly on success. A failed add leaves the state unchanged. |
| IpsoSensor.AddSensorSucceeds | iowa/src/objects/iowa_object_ipso.c:794-923 | On a valid state, an add succeeds exactly when the kind is supported, is not level control, passes the value check, and (for a kind with instances) has an instance id left. |
| IpsoSensor.AddSensorSuccess | iowa/src/objects/iowa_object_ipso.c:840-923 | A successful add creates exactly one instance under a fresh id, with min = max = value, the given range, unit and type, and the kind's resource list. It registers the kind when the kind had no object. |
| IpsoSensor.AddSensorHandle | iowa/src/objects/iowa_object_ipso.c:927 | The handle of a new sensor names its kind and is never the invalid sensor id. |
| IpsoSensor.AddSensorFrame | iowa/src/objects/iowa_object_ipso.c:908-923 | A successful add leaves every existing instance and every other object as it was. |
| IpsoSensor.AddSensorKeepsValid | iowa/src/objects/iowa_object_ipso.c:775-931 | Adding a sensor preserves the adapter invariant. |
| IpsoSensor.RemoveSensor | iowa/src/objects/iowa_object_ipso.c:933-1020 | A kind outside the IPSO sensor kinds gives 4.02. A failure leaves the state unchanged. Removing the last instance removes the object; otherwise only that instance goes. |
| IpsoSensor.RemoveSensorNotFound | iowa/src/objects/iowa_object_ipso.c:985-1000 | An unknown object or instance gives 4.04 and leaves the state unchanged. |
| IpsoSensor.RemoveSensorKeepsValid | iowa/src/objects/iowa_object_ipso.c:1002-1014 | Removing a sensor preserves the adapter invariant: no object is left without instances. |
| IpsoSensor.RemoveUndoesAdd | iowa/src/objects/iowa_object_ipso.c:933-1020 | Removing a sensor just added, by its handle, gives back exactly the state before the add. |
| IpsoSensor.UpdateValue | iowa/src/objects/iowa_object_ipso.c:1022-1079 | A value failing the domain check gives 4.06 before any lookup. An unknown sensor gives 4.04. Any failure changes nothing and raises nothing. An accepted value on a registered sensor always succeeds. Its notifications are those of the value rule for that one value. On success, the new value is stored and only that instance's measured bounds may change besides it. Every other object, every other instance of the kind and the kind's descriptors are unchanged. |
| IpsoSensor.UpdateValueRange | iowa/src/objects/iowa_object_ipso.c:1063-1068 | An update on a range sensor only ever widens the measured bounds and keeps min ≤ max. |
| IpsoSensor.UpdateValueKeepsValid | iowa/src/objects/iowa_object_ipso.c:1022-1079 | Updating a value preserves the adapter invariant. |
| ServerObject.Find | iowa/src/objects/iowa_object_server.c:32-36 | The first session backing the given Server object instance, or none exactly when no session backs it. |
| ServerObject.ReadEntry | iowa/src/objects/iowa_object_server.c:74-112 | Short id, lifetime, Default Minimum Period, Default Maximum Period, Disable Timeout, storing and binding each read their own session field. Only the value changes. |
| ServerObject.ReadEntries | iowa/src/objects/iowa_object_server.c:56-114 | Read succeeds exactly when every entry names an existing session, and then answers each entry from its session; the only failure is 4.04. |
| ServerObject.WriteEntry | iowa/src/objects/iowa_object_server.c:150-232 | The result is 4.00 exactly for an out-of-range lifetime, period or timeout, and for the read-only Binding; a failure changes nothing. A valid value is stored in its own field only and raises its setting-changed event. Short Server ID, Disable, Update and unknown resources succeed with no change and no event. |
| ServerObject.WriteEntries | iowa/src/objects/iowa_object_server.c:132-234 | Write never changes which instances the sessions back. It ends in success, 4.00 or 4.04. |
| ServerObject.WriteSucceeds | iowa/src/objects/iowa_object_server.c:132-234 | A Write succeeds exactly when every entry names an existing session and carries an acceptable value. |
| ServerObject.WriteKeepsInRange | iowa/src/objects/iowa_object_server.c:153-214 | Because values are checked before they are stored, a Write never takes a setting out of its field's range. |
| ServerObject.WriteStopsAtFailure | iowa/src/objects/iowa_object_server.c:133 | Entries after a failing one are never applied. |
| ServerObject.WriteLifetime | iowa/src/objects/iowa_object_server.c:153-175 | An out-of-range lifetime gives 4.00 and changes nothing. The current value changes nothing and raises nothing. A new value is stored, with exactly one setting-changed event and one registration-update request. |
| ServerObject.WriteThenRead | iowa/src/objects/iowa_object_server.c:132-234 | A lifetime or storing value that was written is what a later Read returns. |
| ServerObject.ExecuteEntry | iowa/src/objects/iowa_object_server.c:259-287 | Disable fails with 4.00 exactly when the session is disconnected, registering or failed. Otherwise it only raises the Disable flag. Update requests a registration update. |
| ServerObject.ExecuteEntries | iowa/src/objects/iowa_object_server.c:236-289 | Execute keeps the instances the sessions back and touches nothing but the Disable flag. It ends in success, 4.00 or 4.04. |
| ServerObject.ExecuteWithArgument | iowa/src/objects/iowa_object_server.c:239-245 | An entry carrying an argument is refused with 4.00 before the lookup, and changes nothing. |
| ServerObject.ExecuteDisable | iowa/src/objects/iowa_object_server.c:270-281 | Disable before registration gives 4.00 and changes nothing; otherwise only the flag is raised. |
| ServerObject.UnknownInstance | iowa/src/objects/iowa_object_server.c:59-71 | Read, Write and argument-free Execute on an instance no session backs give 4.04. Write and Execute then change nothing. |
| ServerObject.ServerObjectCallback | iowa/src/objects/iowa_object_server.c:38-298 | The callback keeps the instances the sessions back. Read changes no session and raises nothing. Free changes nothing. Write and Execute leave the entries as they were. |
| ServerObject.ResInstances | iowa/src/objects/iowa_object_server.c:300-318 | No resource of the Server object has resource instances. |
| ServerObject.ServerCreate | iowa/src/objects/iowa_object_server.c:385-402 | The instance is added exactly when it is new; an id already held is refused. |
| ServerObject.ServerRemove | iowa/src/objects/iowa_object_server.c:404-418 | The instance is removed exactly when it is held; an unknown id is refused. |
| ServerObject.RemoveUndoesCreate | iowa/src/objects/iowa_object_server.c:385-418 | Removing an instance just created restores the registry. |

## Left out

- Allocation failures are not modelled: every allocation succeeds. On the one at iowa/src/data/iowa_text_opaque.c:246, the source frees `dataP` rather than the entry array it allocated. No claim is made about that path.
- Float formatting (`dataUtilsFloatToBuffer`) is not part of this model. `TextSerialize` takes the formatter as a parameter `floatText`, and only its fit in the 64-byte scratch buffer is modelled.
- The integer and object-link formatters are modelled by `Decimal` as minimal-width decimal text. The Base64 encoder is modelled by `Base64` as the classic RFC 4648 encoding with padding.
- The binding formatter (`utils_bindingToString`) is not part of this model. `ServerObject.ReadEntry` takes it as a parameter `bindingText`.
- `utilsBufferToString` is not part of this model. A written application type is stored as the written bytes, and an empty buffer clears it. A read of the units or the application type takes the strlen of the stored text (`UntilNul`), so it stops at the first 0 byte.
- The object registry is not part of this model (`customObjectAdd`, `objectAddInstance`, `objectRemoveInstance`, `customObjectRemove`, `object_find`, `object_hasResource`, `objectGetData`, `objectGetInstanceData`). It is folded into the sensor state, and its calls succeed whenever the adapter's own checks pass.
- IpsoSensor.UpdateValue: the source looks up any registered object id and instance (iowa/src/objects/iowa_object_ipso.c:1050-1063) and updates its instance data as a sensor instance, with no check that the object is an IPSO sensor. The registry holds other objects too, such as level-control or custom objects. The model knows only the sensor state, so it answers 4.04 for every object outside it. Updating another object's data is not modelled.
  - `ServerCreate` and `ServerRemove` model registry refusal as `RegistryRefused`; the registry's failure codes are not part of this model.
  - The dispatch router is assumed to address only existing instances, which is the `Addressed` precondition of the IPSO callback.
- `LIST_NEW_16_BITS_ID` is taken to return the lowest free id below 0xFFFF, and 5.00 when none is left.
- IPSO object and resource ids, the Server object's resource ids and the status codes come from the OMA LwM2M registries. The enumerations and headers that define them are not part of this model. Status codes are a datatype.
- The descriptor flags and operation masks (iowa/include/iowa_client.h:40-53) are not modelled. Descriptors are resource ids only.
- The server session fields are unbounded integers. `INT_MAX` is taken as `INT32_MAX`.
- IpsoSensor.ReadEntry: reading the digital counter truncates `max` toward zero as an unbounded integer, without the overflow of the 32-bit cast.
- Critical sections, `INTERRUPT_SELECT` and `clientNotificationLock` are concurrency plumbing and have no effect in the model. Logging is left out.
- The value checks and the 4.02 refusals of `iowa_client_IPSO_add_sensor`, `iowa_client_IPSO_remove_sensor` and `iowa_client_IPSO_update_value` (iowa/src/objects/iowa_object_ipso.c:792-807, 943-981 and 1036-1046) exist only when `IOWA_CONFIG_SKIP_ARGS_CHECK` is not defined. So does the 4.06 refusal of a wildcard resource in the text and opaque deserializers (iowa/src/data/iowa_text_opaque.c:224-230). All of them are taken as compiled in.
- The compile-time resource counts of `objectServerInit` are not modelled, and neither is `objectServerClose`. The Default Periods and Disable Timeout resources are taken as compiled in.
- `ApproxEq` stands for `dataUtilsCompareFloatingPointNumbers`, which is not part of this model. It is an absolute tolerance of `FLT_EPSILON`.
- ServerObject.ResInstances: its contract is the constant answer of the callback, which ignores all of its inputs.
- TextOpaque.TextDeserialize: Plain Text payloads always decode to a String entry, whatever the resource's type. Only the untyped round trip (string back to the same bytes) holds, not a typed one.
- IpsoSensor.ExecuteResultIsLastSticky: an entry carrying an argument sets 4.00 at any index, not only at index 0. Only a 4.05 at an index above 0 never becomes the result; the contract says exactly that.

=== FILE: base64.dfy ===
/**
  The "base64" encoding of RFC 4648, section 4 (the classic alphabet
  A-Z a-z 0-9 + / with '=' padding), which the text format uses for opaque
  values. The decoder is the reference partner of the encoder: every encoding
  decodes back to its input.
 */
module Base64 {
  import opened Lwm2mData

  /** The padding character '='. */
  const PAD: byte := 61

  /** The character encoding the 6-bit group `i` (Table 1 of RFC 4648). */
  function Symbol(i: int): (c: byte)
    requires 0 <= i < 64
    ensures c != PAD
  {
    if i < 26 then 65 + i             // 'A'..'Z'
    else if i < 52 then 97 + (i - 26) // 'a'..'z'
    else if i < 62 then 48 + (i - 52) // '0'..'9'
    else if i == 62 then 43           // '+'
    else 47                           // '/'
  }

  /** The 6-bit group a character of the alphabet stands for, or -1. */
  function Index(c: byte): (i: int)
    ensures -1 <= i < 64
  {
    if 65 <= c <= 90 then c - 65
    else if 97 <= c <= 122 then c - 97 + 26
    else if 48 <= c <= 57 then c - 48 + 52
    else if c == 43 then 62
    else if c == 47 then 63
    else -1
  }

  lemma IndexOfSymbol(i: int)
    requires 0 <= i < 64
    ensures Index(Symbol(i)) == i
  {
  }

  /** The length of the encoding of `n` bytes: four characters per started
      group of three bytes. */
  function EncodedSize(n: nat): nat
  {
    ((n + 2) / 3) * 4
  }

  /** Three bytes as four characters. */
  function Block(b0: byte, b1: byte, b2: byte): (r: seq<byte>)
    ensures |r| == 4
  {
    [Symbol(b0 / 4), Symbol((b0 % 4) * 16 + b1 / 16), Symbol((b1 % 16) * 4 + b2 / 64), Symbol(b2 % 64)]
  }

  /** A final single byte: two characters and two padding characters. */
  function TailOne(b0: byte): (r: seq<byte>)
    ensures |r| == 4
  {
    [Symbol(b0 / 4), Symbol((b0 % 4) * 16), PAD, PAD]
  }

  /** Two final bytes: three characters and one padding character. */
  function TailTwo(b0: byte, b1: byte): (r: seq<byte>)
    ensures |r| == 4
  {
    [Symbol(b0 / 4), Symbol((b0 % 4) * 16 + b1 / 16), Symbol((b1 % 16) * 4), PAD]
  }

  function Encode(s: seq<byte>): (r: seq<byte>)
    ensures |r| == EncodedSize(|s|)
    ensures |r| == 0 <==> |s| == 0
    decreases |s|
  {
    if |s| == 0 then []
    else if |s| == 1 then TailOne(s[0])
    else if |s| == 2 then TailTwo(s[0], s[1])
    else Block(s[0], s[1], s[2]) + Encode(s[3..])
  }

  /** Four alphabet characters as three bytes. */
  function DecodeBlock(c0: byte, c1: byte, c2: byte, c3: byte): Option<seq<byte>>
  {
    var i0, i1, i2, i3 := Index(c0), Index(c1), Index(c2), Index(c3);
    if i0 < 0 || i1 < 0 || i2 < 0 || i3 < 0 then None
    else Some([i0 * 4 + i1 / 16, (i1 % 16) * 16 + i2 / 4, (i2 % 4) * 64 + i3])
  }

  /** The final group, which may carry one or two padding characters. */
  function DecodeLast(c0: byte, c1: byte, c2: byte, c3: byte): Option<seq<byte>>
  {
    var i0, i1, i2 := Index(c0), Index(c1), Index(c2);
    if c2 == PAD && c3 == PAD then
      if i0 < 0 || i1 < 0 || i1 % 16 != 0 then None
      else Some([i0 * 4 + i1 / 16])
    else if c3 == PAD then
      if i0 < 0 || i1 < 0 || i2 < 0 || i2 % 4 != 0 then None
      else Some([i0 * 4 + i1 / 16, (i1 % 16) * 16 + i2 / 4])
    else DecodeBlock(c0, c1, c2, c3)
  }

  function Decode(e: seq<byte>): Option<seq<byte>>
    decreases |e|
  {
    if |e| == 0 then Some([])
    else if |e| < 4 then None
    else if |e| == 4 then DecodeLast(e[0], e[1], e[2], e[3])
    else
      match DecodeBlock(e[0], e[1], e[2], e[3])
      case None => None
      case Some(head) =>
        match Decode(e[4..])
        case None => None
        case Some(tail) => Some(head + tail)
  }

  lemma BlockRoundTrip(b0: byte, b1: byte, b2: byte)
    ensures var r := Block(b0, b1, b2); DecodeBlock(r[0], r[1], r[2], r[3]) == Some([b0, b1, b2])
  {
    var i0, i1, i2, i3 := b0 / 4, (b0 % 4) * 16 + b1 / 16, (b1 % 16) * 4 + b2 / 64, b2 % 64;
    IndexOfSymbol(i0); IndexOfSymbol(i1); IndexOfSymbol(i2); IndexOfSymbol(i3);
    assert i1 / 16 == b0 % 4 && i1 % 16 == b1 / 16;
    assert i2 / 4 == b1 % 16 && i2 % 4 == b2 / 64;
  }

  lemma DecodeLastOfOne(i0: int, i1: int)
    requires 0 <= i0 < 64 && 0 <= i1 < 64 && i1 % 16 == 0
    ensures i0 * 4 + i1 / 16 < 256
    ensures DecodeLast(Symbol(i0), Symbol(i1), PAD, PAD) == Some([i0 * 4 + i1 / 16])
  {
    IndexOfSymbol(i0); IndexOfSymbol(i1);
  }

  lemma DecodeLastOfTwo(i0: int, i1: int, i2: int)
    requires 0 <= i0 < 64 && 0 <= i1 < 64 && 0 <= i2 < 64 && i2 % 4 == 0
    ensures i0 * 4 + i1 / 16 < 256 && (i1 % 16) * 16 + i2 / 4 < 256
    ensures DecodeLast(Symbol(i0), Symbol(i1), Symbol(i2), PAD) == Some([i0 * 4 + i1 / 16, (i1 % 16) * 16 + i2 / 4])
  {
    IndexOfSymbol(i0); IndexOfSymbol(i1); IndexOfSymbol(i2);
  }

  /** Splitting a byte into its high six and low two bits, and a low nibble
      into four bits followed by two zero bits. */
  lemma Split(b: byte)
    ensures 0 <= b / 4 < 64 && (b / 4) * 4 + b % 4 == b
    ensures 0 <= (b % 4) * 16 < 64 && ((b % 4) * 16) % 16 == 0 && ((b % 4) * 16) / 16 == b % 4
  {
  }

  lemma DecodeTailOne(b0: byte)
    ensures Decode(TailOne(b0)) == Some([b0])
  {
    var i0, i1 := b0 / 4, (b0 % 4) * 16;
    var e := TailOne(b0);
    assert e[0] == Symbol(i0) && e[1] == Symbol(i1) && e[2] == PAD && e[3] == PAD;
    assert Decode(e) == DecodeLast(e[0], e[1], e[2], e[3]);
    Split(b0);
    DecodeLastOfOne(i0, i1);
  }

  lemma DecodeTailTwo(b0: byte, b1: byte)
    ensures Decode(TailTwo(b0, b1)) == Some([b0, b1])
  {
    var i0, i1, i2 := b0 / 4, (b0 % 4) * 16 + b1 / 16, (b1 % 16) * 4;
    var e := TailTwo(b0, b1);
    assert e[0] == Symbol(i0) && e[1] == Symbol(i1) && e[2] == Symbol(i2) && e[3] == PAD;
    assert Decode(e) == DecodeLast(e[0], e[1], e[2], e[3]);
    SplitTwo(b0, b1);
    DecodeLastOfTwo(i0, i1, i2);
  }

  lemma SplitTwo(b0: byte, b1: byte)
    ensures var i1, i2 := (b0 % 4) * 16 + b1 / 16, (b1 % 16) * 4;
            && 0 <= i1 < 64 && 0 <= i2 < 64 && i2 % 4 == 0
            && (b0 / 4) * 4 + i1 / 16 == b0
            && (i1 % 16) * 16 + i2 / 4 == b1
  {
    var i1, i2 := (b0 % 4) * 16 + b1 / 16, (b1 % 16) * 4;
    assert i1 / 16 == b0 % 4 && i1 % 16 == b1 / 16;
    assert i2 / 4 == b1 % 16;
  }

  /** Every encoding decodes back to its input. */
  lemma {:induction false} DecodeEncode(s: seq<byte>)
    ensures Decode(Encode(s)) == Some(s)
    decreases |s|
  {
    if |s| == 1 {
      DecodeTailOne(s[0]);
      assert [s[0]] == s;
    } else if |s| == 2 {
      DecodeTailTwo(s[0], s[1]);
      assert [s[0], s[1]] == s;
    } else if |s| >= 3 {
      var b := Block(s[0], s[1], s[2]);
      var e := Encode(s);
      assert e == b + Encode(s[3..]);
      BlockRoundTrip(s[0], s[1], s[2]);
      assert e[0] == b[0] && e[1] == b[1] && e[2] == b[2] && e[3] == b[3];
      if |s| == 3 {
        assert |e| == 4;
        assert b[3] != PAD;
        assert [s[0], s[1], s[2]] == s;
      } else {
        assert |e| > 4;
        assert e[4..] == Encode(s[3..]);
        DecodeEncode(s[3..]);
        assert [s[0], s[1], s[2]] + s[3..] == s;
      }
    }
  }
}

=== FILE: decimal.dfy ===
/**
  Minimal-width ASCII decimal text for integers, as the text format writes
  integer, time and object-link values, and the parser that reads it back.
 */
module Decimal {
  import opened Lwm2mData

  const MINUS: byte := 45  // '-'
  const COLON: byte := 58  // ':'

  predicate IsDigit(c: byte) {
    48 <= c <= 57
  }

  predicate AllDigits(s: seq<byte>) {
    forall k :: 0 <= k < |s| ==> IsDigit(s[k])
  }

  function Pow10(k: nat): (r: nat)
    ensures r >= 1
  {
    if k == 0 then 1 else 10 * Pow10(k - 1)
  }

  /** The decimal digits of `n`, most significant first, without leading zeros. */
  function NatText(n: nat): (r: seq<byte>)
    ensures |r| >= 1 && AllDigits(r)
    ensures |r| > 1 ==> r[0] != 48
    decreases n
  {
    if n < 10 then [48 + n] else NatText(n / 10) + [48 + n % 10]
  }

  /** The decimal text of `i`, with a leading '-' when negative. */
  function IntText(i: int): (r: seq<byte>)
    ensures |r| >= 1
    ensures i < 0 <==> r[0] == MINUS
  {
    if i < 0 then [MINUS] + NatText(-i) else NatText(i)
  }

  /** The text "<objectId>:<instanceId>" of an object link. */
  function ObjLinkText(l: ObjLink): seq<byte>
  {
    NatText(l.objectId) + [COLON] + NatText(l.instanceId)
  }

  function DigitsValue(s: seq<byte>): nat
    requires AllDigits(s)
    decreases |s|
  {
    if |s| == 0 then 0 else DigitsValue(s[..|s| - 1]) * 10 + (s[|s| - 1] - 48)
  }

  /** Reads an optionally negative decimal integer; `None` for anything else. */
  function ParseInt(s: seq<byte>): Option<int>
  {
    if |s| == 0 then None
    else if s[0] == MINUS then
      if |s| > 1 && AllDigits(s[1..]) then Some(0 - DigitsValue(s[1..])) else None
    else if AllDigits(s) then Some(DigitsValue(s))
    else None
  }

  lemma {:induction false} DigitsOfNatText(n: nat)
    ensures DigitsValue(NatText(n)) == n
    decreases n
  {
    if n >= 10 {
      var t := NatText(n);
      assert t[..|t| - 1] == NatText(n / 10);
      DigitsOfNatText(n / 10);
    }
  }

  /** Reading back the text of an integer gives the integer. */
  lemma ParseIntText(i: int)
    ensures ParseInt(IntText(i)) == Some(i)
  {
    var t := IntText(i);
    if i < 0 {
      var digits := NatText(-i);
      assert t[1..] == digits;
      DigitsOfNatText(-i);
      assert ParseInt(t) == Some(0 - DigitsValue(digits));
    } else {
      assert IsDigit(t[0]);
      DigitsOfNatText(i);
      assert ParseInt(t) == Some(DigitsValue(t));
    }
  }

  lemma {:induction false} NatTextLength(n: nat, k: nat)
    requires 1 <= k && n < Pow10(k)
    ensures |NatText(n)| <= k
    decreases k
  {
    if n >= 10 {
      assert k > 1;
      assert n / 10 < Pow10(k - 1);
      NatTextLength(n / 10, k - 1);
    }
  }

  /** A 64-bit signed integer needs at most 20 characters. */
  lemma Int64TextLength(i: int)
    requires INT64_MIN <= i <= INT64_MAX
    ensures |IntText(i)| <= 20
  {
    assert Pow10(5) == 100_000;
    assert Pow10(10) == 100_000 * Pow10(5);
    assert Pow10(15) == 100_000 * Pow10(10);
    assert Pow10(19) == 10_000 * Pow10(15);
    if i < 0 {
      NatTextLength(-i, 19);
    } else {
      NatTextLength(i, 19);
    }
  }

  /** An object link needs at most 11 characters ("65535:65535"). */
  lemma ObjLinkTextLength(l: ObjLink)
    ensures |ObjLinkText(l)| <= 11
  {
    assert Pow10(5) == 100_000;
    NatTextLength(l.objectId, 5);
    NatTextLength(l.instanceId, 5);
  }
}

=== FILE: ipso_resources.dfy ===
/**
  The IPSO sensor kinds handled by the generic sensor adapter and the
  resources each kind exposes: the resource descriptors of the object, and
  the resources of one instance, which depend on whether a unit, an
  application type and a range were supplied.

  A sensor kind is the Object ID of its IPSO object; the numbers below are
  those of the OMA LwM2M object and resource registry.
 */
module IpsoResources {
  import opened Lwm2mData

  // Sensor kinds (Object IDs).
  const DIGITAL_INPUT: uint16 := 3200
  const ANALOG_INPUT: uint16 := 3202
  const GENERIC: uint16 := 3300
  const ILLUMINANCE: uint16 := 3301
  const PRESENCE: uint16 := 3302
  const TEMPERATURE: uint16 := 3303
  const HUMIDITY: uint16 := 3304
  const BAROMETER: uint16 := 3315
  const VOLTAGE: uint16 := 3316
  const CURRENT: uint16 := 3317
  const FREQUENCY: uint16 := 3318
  const DEPTH: uint16 := 3319
  const PERCENTAGE: uint16 := 3320
  const ALTITUDE: uint16 := 3321
  const LOAD: uint16 := 3322
  const PRESSURE: uint16 := 3323
  const LOUDNESS: uint16 := 3324
  const CONCENTRATION: uint16 := 3325
  const ACIDITY: uint16 := 3326
  const CONDUCTIVITY: uint16 := 3327
  const POWER: uint16 := 3328
  const POWER_FACTOR: uint16 := 3329
  const DISTANCE: uint16 := 3330
  const ENERGY: uint16 := 3331
  const DIRECTION: uint16 := 3332
  const ON_OFF_SWITCH: uint16 := 3342
  const LEVEL_CONTROL: uint16 := 3343
  const RATE: uint16 := 3346
  const PUSH_BUTTON: uint16 := 3347

  // Resource IDs.
  const RSC_DIGITAL_INPUT_STATE: uint16 := 5500
  const RSC_DIGITAL_INPUT_COUNTER: uint16 := 5501
  const RSC_DIGITAL_INPUT_COUNTER_RESET: uint16 := 5505
  const RSC_LEVEL: uint16 := 5548
  const RSC_ANALOG_INPUT_CURRENT_VALUE: uint16 := 5600
  const RSC_MIN_MEASURED_VALUE: uint16 := 5601
  const RSC_MAX_MEASURED_VALUE: uint16 := 5602
  const RSC_MIN_RANGE_VALUE: uint16 := 5603
  const RSC_MAX_RANGE_VALUE: uint16 := 5604
  const RSC_RESET_MIN_AND_MAX_MEASURED_VALUES: uint16 := 5605
  const RSC_SENSOR_VALUE: uint16 := 5700
  const RSC_SENSOR_UNITS: uint16 := 5701
  const RSC_COMPASS_DIRECTION: uint16 := 5705
  const RSC_APPLICATION_TYPE: uint16 := 5750
  const RSC_SENSOR_TYPE: uint16 := 5751
  const RSC_CUMULATIVE_ACTIVE_POWER: uint16 := 5805
  const RSC_RESET_CUMULATIVE_ENERGY: uint16 := 5822

  /** How a kind is laid out. `Plain` kinds share the generic sensor layout;
      the `cto` ones among them also carry an application type. */
  datatype Family =
    | Plain(cto: bool)
    | AnalogInput
    | Energy
    | Direction
    | DigitalLike
    | Presence
    | Unsupported

  function FamilyOf(t: int): Family
  {
    if t == ILLUMINANCE || t == TEMPERATURE || t == HUMIDITY || t == BAROMETER then Plain(false)
    else if t == GENERIC || t == VOLTAGE || t == CURRENT || t == FREQUENCY || t == DEPTH
         || t == PERCENTAGE || t == ALTITUDE || t == LOAD || t == PRESSURE || t == LOUDNESS
         || t == CONCENTRATION || t == ACIDITY || t == CONDUCTIVITY || t == POWER
         || t == POWER_FACTOR || t == RATE || t == DISTANCE then Plain(true)
    else if t == ANALOG_INPUT then AnalogInput
    else if t == ENERGY then Energy
    else if t == DIRECTION then Direction
    else if t == DIGITAL_INPUT || t == PUSH_BUTTON || t == ON_OFF_SWITCH then DigitalLike
    else if t == PRESENCE then Presence
    else Unsupported
  }

  /** The Object IDs the sensor-removal API accepts as IPSO sensors. */
  predicate IsIpsoSensorType(t: int)
  {
    t == ANALOG_INPUT || t == GENERIC || t == ILLUMINANCE || t == TEMPERATURE || t == HUMIDITY
    || t == BAROMETER || t == VOLTAGE || t == CURRENT || t == FREQUENCY || t == DEPTH
    || t == PERCENTAGE || t == ALTITUDE || t == LOAD || t == PRESSURE || t == LOUDNESS
    || t == CONCENTRATION || t == ACIDITY || t == CONDUCTIVITY || t == POWER
    || t == POWER_FACTOR || t == RATE || t == DISTANCE || t == ENERGY || t == DIRECTION
    || t == DIGITAL_INPUT || t == PRESENCE || t == ON_OFF_SWITCH || t == PUSH_BUTTON
  }

  predicate NoDuplicates(s: seq<uint16>)
  {
    forall j, k :: 0 <= j < k < |s| ==> s[j] != s[k]
  }

  function B(b: bool): nat
  {
    if b then 1 else 0
  }

  function When(b: bool, ids: seq<uint16>): (r: seq<uint16>)
    ensures |r| == if b then |ids| else 0
  {
    if b then ids else []
  }

  /** The resources an object of a family declares, in declaration order. */
  function FamilyDesc(f: Family): (r: seq<uint16>)
    ensures NoDuplicates(r)
  {
    match f
    case AnalogInput =>
      [RSC_ANALOG_INPUT_CURRENT_VALUE, RSC_MIN_MEASURED_VALUE, RSC_MAX_MEASURED_VALUE,
       RSC_RESET_MIN_AND_MAX_MEASURED_VALUES, RSC_MIN_RANGE_VALUE, RSC_MAX_RANGE_VALUE,
       RSC_APPLICATION_TYPE]
    case Energy =>
      [RSC_SENSOR_VALUE, RSC_RESET_CUMULATIVE_ENERGY, RSC_SENSOR_UNITS, RSC_APPLICATION_TYPE]
    case Direction =>
      [RSC_COMPASS_DIRECTION, RSC_APPLICATION_TYPE, RSC_MIN_MEASURED_VALUE,
       RSC_MAX_MEASURED_VALUE, RSC_RESET_MIN_AND_MAX_MEASURED_VALUES]
    case DigitalLike =>
      [RSC_DIGITAL_INPUT_STATE, RSC_DIGITAL_INPUT_COUNTER, RSC_APPLICATION_TYPE]
    case Presence =>
      [RSC_DIGITAL_INPUT_STATE, RSC_DIGITAL_INPUT_COUNTER, RSC_SENSOR_TYPE,
       RSC_DIGITAL_INPUT_COUNTER_RESET]
    case Plain(cto) =>
      if cto then
        [RSC_SENSOR_VALUE, RSC_MIN_MEASURED_VALUE, RSC_MAX_MEASURED_VALUE,
         RSC_RESET_MIN_AND_MAX_MEASURED_VALUES, RSC_SENSOR_UNITS, RSC_MIN_RANGE_VALUE,
         RSC_MAX_RANGE_VALUE, RSC_APPLICATION_TYPE]
      else
        [RSC_SENSOR_VALUE, RSC_MIN_MEASURED_VALUE, RSC_MAX_MEASURED_VALUE,
         RSC_RESET_MIN_AND_MAX_MEASURED_VALUES, RSC_SENSOR_UNITS, RSC_MIN_RANGE_VALUE,
         RSC_MAX_RANGE_VALUE]
    case Unsupported => []
  }

  /** The resources an object of kind `t` declares, in declaration order;
      empty for a kind the adapter does not support. */
  function ResourceDesc(t: int): (r: seq<uint16>)
    ensures |r| == match FamilyOf(t)
                   case AnalogInput => 7
                   case Energy => 4
                   case Direction => 5
                   case DigitalLike => 3
                   case Presence => 4
                   case Plain(cto) => 7 + B(cto)
                   case Unsupported => 0
    ensures NoDuplicates(r)
  {
    FamilyDesc(FamilyOf(t))
  }

  /** `s` lists each of its elements once and only elements of `within`. */
  predicate DistinctWithin(s: seq<uint16>, within: seq<uint16>)
  {
    NoDuplicates(s) && forall k :: 0 <= k < |s| ==> s[k] in within
  }

  function AnalogInputList(withRange: bool, withAppType: bool): (r: seq<uint16>)
    ensures |r| == 4 + B(withAppType) + 2 * B(withRange)
    ensures DistinctWithin(r, FamilyDesc(AnalogInput))
    ensures RSC_APPLICATION_TYPE in r <==> withAppType
    ensures RSC_MIN_RANGE_VALUE in r <==> withRange
    ensures RSC_MAX_RANGE_VALUE in r <==> withRange
  {
    [RSC_ANALOG_INPUT_CURRENT_VALUE, RSC_MIN_MEASURED_VALUE, RSC_MAX_MEASURED_VALUE,
     RSC_RESET_MIN_AND_MAX_MEASURED_VALUES]
    + When(withAppType, [RSC_APPLICATION_TYPE])
    + When(withRange, [RSC_MIN_RANGE_VALUE, RSC_MAX_RANGE_VALUE])
  }

  function EnergyList(withUnit: bool, withAppType: bool): (r: seq<uint16>)
    ensures |r| == 2 + B(withUnit) + B(withAppType)
    ensures DistinctWithin(r, FamilyDesc(Energy))
    ensures RSC_SENSOR_UNITS in r <==> withUnit
    ensures RSC_APPLICATION_TYPE in r <==> withAppType
  {
    [RSC_SENSOR_VALUE, RSC_RESET_CUMULATIVE_ENERGY]
    + When(withUnit, [RSC_SENSOR_UNITS])
    + When(withAppType, [RSC_APPLICATION_TYPE])
  }

  function DirectionList(withAppType: bool): (r: seq<uint16>)
    ensures |r| == 4 + B(withAppType)
    ensures DistinctWithin(r, FamilyDesc(Direction))
    ensures RSC_APPLICATION_TYPE in r <==> withAppType
  {
    [RSC_COMPASS_DIRECTION]
    + When(withAppType, [RSC_APPLICATION_TYPE])
    + [RSC_MIN_MEASURED_VALUE, RSC_MAX_MEASURED_VALUE, RSC_RESET_MIN_AND_MAX_MEASURED_VALUES]
  }

  function DigitalList(withAppType: bool): (r: seq<uint16>)
    ensures |r| == 2 + B(withAppType)
    ensures DistinctWithin(r, FamilyDesc(DigitalLike))
    ensures RSC_APPLICATION_TYPE in r <==> withAppType
  {
    [RSC_DIGITAL_INPUT_STATE, RSC_DIGITAL_INPUT_COUNTER]
    + When(withAppType, [RSC_APPLICATION_TYPE])
  }

  function PresenceList(withAppType: bool): (r: seq<uint16>)
    ensures |r| == 3 + B(withAppType)
    ensures DistinctWithin(r, FamilyDesc(Presence))
    // a presence sensor publishes its application type as its sensor type
    ensures RSC_SENSOR_TYPE in r <==> withAppType
  {
    [RSC_DIGITAL_INPUT_STATE, RSC_DIGITAL_INPUT_COUNTER]
    + When(withAppType, [RSC_SENSOR_TYPE])
    + [RSC_DIGITAL_INPUT_COUNTER_RESET]
  }

  function PlainList(cto: bool, withRange: bool, withUnit: bool, withAppType: bool): (r: seq<uint16>)
    ensures |r| == 4 + B(withUnit) + B(cto && withAppType) + 2 * B(withRange)
    ensures DistinctWithin(r, FamilyDesc(Plain(cto)))
    ensures RSC_SENSOR_UNITS in r <==> withUnit
    // only the kinds with an application-type descriptor expose it
    ensures RSC_APPLICATION_TYPE in r <==> cto && withAppType
    ensures RSC_MIN_RANGE_VALUE in r <==> withRange
    ensures RSC_MAX_RANGE_VALUE in r <==> withRange
  {
    PlainHead(cto, withUnit, withAppType) + When(withRange, [RSC_MIN_RANGE_VALUE, RSC_MAX_RANGE_VALUE])
  }

  /** The plain layout up to, and without, the optional range. */
  function PlainHead(cto: bool, withUnit: bool, withAppType: bool): (r: seq<uint16>)
    ensures |r| == 4 + B(withUnit) + B(cto && withAppType)
    ensures DistinctWithin(r, FamilyDesc(Plain(cto)))
    ensures RSC_SENSOR_UNITS in r <==> withUnit
    ensures RSC_APPLICATION_TYPE in r <==> cto && withAppType
    ensures RSC_MIN_RANGE_VALUE !in r && RSC_MAX_RANGE_VALUE !in r
  {
    [RSC_SENSOR_VALUE, RSC_MIN_MEASURED_VALUE, RSC_MAX_MEASURED_VALUE,
     RSC_RESET_MIN_AND_MAX_MEASURED_VALUES]
    + When(withUnit, [RSC_SENSOR_UNITS])
    + When(cto && withAppType, [RSC_APPLICATION_TYPE])
  }

  /** The resources one instance of kind `t` exposes, given which optional
      attributes were supplied; empty for an unsupported kind. */
  function ResourceList(t: int, withRange: bool, withUnit: bool, withAppType: bool): (r: seq<uint16>)
    ensures |r| == match FamilyOf(t)
                   case AnalogInput => 4 + B(withAppType) + 2 * B(withRange)
                   case Energy => 2 + B(withUnit) + B(withAppType)
                   case Direction => 4 + B(withAppType)
                   case DigitalLike => 2 + B(withAppType)
                   case Presence => 3 + B(withAppType)
                   case Plain(cto) => 4 + B(withUnit) + B(cto && withAppType) + 2 * B(withRange)
                   case Unsupported => 0
    // each resource once, and only resources the object declares
    ensures DistinctWithin(r, ResourceDesc(t))
  {
    match FamilyOf(t)
    case AnalogInput => AnalogInputList(withRange, withAppType)
    case Energy => EnergyList(withUnit, withAppType)
    case Direction => DirectionList(withAppType)
    case DigitalLike => DigitalList(withAppType)
    case Presence => PresenceList(withAppType)
    case Plain(cto) => PlainList(cto, withRange, withUnit, withAppType)
    case Unsupported => []
  }

  /** The kinds the removal API accepts are exactly the kinds the adapter can
      create an object for. */
  lemma SensorTypesAreSupportedKinds(t: int)
    ensures IsIpsoSensorType(t) <==> |ResourceDesc(t)| > 0
  {
  }
}

=== FILE: ipso_sensor.dfy ===
/**
  The generic IPSO sensor adapter: sensor instances kept per kind, the data
  callback the dispatch router calls for Read / Write / Execute / Free, the
  value-domain check, the two update rules (counter-like digital sensors and
  min/max-tracking range sensors) and the add / remove / update API.

  Floats are modelled as `real`. The registry of objects and the adapter's
  own instance lists are kept together: a kind present in the state is a
  registered object, and its instance map is both the registry's instance
  list (with each instance's resource list) and the adapter's payload.
 */
module IpsoSensor {
  import opened Lwm2mData
  import opened IpsoResources

  /** FLT_EPSILON, the tolerance of every float comparison of the adapter. */
  const EPSILON: real := 1.0 / 8388608.0

  /** Approximate float equality. The source's comparison helper is not part
      of this model; this absolute-tolerance comparison stands for it. */
  predicate ApproxEq(a: real, b: real)
  {
    -EPSILON <= a - b <= EPSILON
  }

  /** One sensor. `max` doubles as the counter of digital sensors; `resources`
      is the resource list the instance was registered with. */
  datatype SensorInstance = SensorInstance(
    value: real,
    min: real,
    max: real,
    rangeMin: real,
    rangeMax: real,
    unit: Option<seq<byte>>,
    appType: Option<seq<byte>>,
    resources: seq<uint16>)

  /** A registered sensor object: its resource descriptors and its instances. */
  datatype IpsoObject = IpsoObject(desc: seq<uint16>, instances: map<uint16, SensorInstance>)

  /** Every sensor object, keyed by kind. */
  type IpsoState = map<uint16, IpsoObject>

  /** A "resource changed" notification raised towards the observation layer. */
  datatype Event = ResourceChanged(objectId: uint16, instanceId: uint16, resourceId: uint16)

  /** What the state invariant demands of every sensor object. */
  predicate ValidObject(t: uint16, obj: IpsoObject)
  {
    && FamilyOf(t) != Unsupported
    && obj.desc == ResourceDesc(t)
    && obj.instances.Keys != {}
    && ID_ALL !in obj.instances
    && forall id :: id in obj.instances ==> DistinctWithin(obj.instances[id].resources, obj.desc)
  }

  /** The adapter's invariant: only supported kinds, each with at least one
      instance; the last instance takes its object with it. */
  predicate Valid(state: IpsoState)
  {
    forall t :: t in state ==> ValidObject(t, state[t])
  }

  // ---------------------------------------------------------------------
  // Sensor handles

  /** The handle published for instance `id` of kind `t`. */
  function Handle(t: uint16, id: uint16): (h: uint32)
  {
    t * 0x1_0000 + id
  }

  function HandleObjectId(h: uint32): uint16
  {
    h / 0x1_0000
  }

  function HandleInstanceId(h: uint32): uint16
  {
    h % 0x1_0000
  }

  const INVALID_SENSOR_ID: uint32 := 0xFFFF_FFFF

  /** Only the 0xFFFF kind could produce the invalid handle. */
  lemma HandleIsValid(t: uint16, id: uint16)
    requires t != ID_ALL
    ensures Handle(t, id) != INVALID_SENSOR_ID
  {
  }

  /** Shifting right by 16 and masking with 0xFFFF recover both parts. */
  lemma HandleRoundTrip(t: uint16, id: uint16)
    ensures HandleObjectId(Handle(t, id)) == t
    ensures HandleInstanceId(Handle(t, id)) == id
  {
  }

  // ---------------------------------------------------------------------
  // Value-domain check

  predicate IsBooleanKind(t: int)
  {
    t == DIGITAL_INPUT || t == PRESENCE || t == ON_OFF_SWITCH || t == PUSH_BUTTON
  }

  /** Direction values lie in [0, 360]; boolean-like kinds take values close to
      0 or 1; every other kind accepts any value. */
  function CheckResourceValue(t: int, v: real): (r: Status)
    ensures r == NoError || r == NotAcceptable
    ensures t == DIRECTION ==> (r == NoError <==> 0.0 <= v <= 360.0)
    ensures IsBooleanKind(t) ==> (r == NoError <==> ApproxEq(v, 0.0) || ApproxEq(v, 1.0))
    ensures t != DIRECTION && !IsBooleanKind(t) ==> r == NoError
  {
    if t == DIRECTION then
      if v < 0.0 || v > 360.0 then NotAcceptable else NoError
    else if IsBooleanKind(t) then
      if !ApproxEq(v, 0.0) && !ApproxEq(v, 1.0) then NotAcceptable else NoError
    else NoError
  }

  // ---------------------------------------------------------------------
  // Update rules

  /** An instance after an update, with the notifications the update raised. */
  datatype Updated = Updated(inst: SensorInstance, events: seq<Event>)

  /** A rise or fall of more than EPSILON. */
  predicate Rises(prev: real, v: real) { v > prev && v - prev > EPSILON }
  predicate Falls(prev: real, v: real) { prev > v && prev - v > EPSILON }

  /** The number of rises of more than EPSILON along `prev, values[0], values[1], ...`. */
  function CountRises(prev: real, values: seq<real>): nat
    decreases |values|
  {
    if |values| == 0 then 0
    else (if Rises(prev, values[0]) then 1 else 0) + CountRises(values[0], values[1..])
  }

  /** The number of changes (rises or falls) of more than EPSILON. */
  function CountChanges(prev: real, values: seq<real>): nat
    decreases |values|
  {
    if |values| == 0 then 0
    else (if Rises(prev, values[0]) || Falls(prev, values[0]) then 1 else 0) + CountChanges(values[0], values[1..])
  }

  /** How many of `events` concern resource `rid`. */
  function CountFor(events: seq<Event>, rid: uint16): nat
  {
    if |events| == 0 then 0
    else (if events[0].resourceId == rid then 1 else 0) + CountFor(events[1..], rid)
  }

  lemma {:induction false} CountForAppend(a: seq<Event>, b: seq<Event>, rid: uint16)
    ensures CountFor(a + b, rid) == CountFor(a, rid) + CountFor(b, rid)
    decreases |a|
  {
    if |a| > 0 {
      assert (a + b)[1..] == a[1..] + b;
      CountForAppend(a[1..], b, rid);
    } else {
      assert a + b == b;
    }
  }

  /** The digital rule for one new value: a change of more than EPSILON raises
      a state notification; a rise also counts one more pulse when the
      instance has a counter. */
  function DigitalStep(hasCounter: bool, inst: SensorInstance, prev: real, v: real, o: uint16, i: uint16): (r: Updated)
  {
    if Rises(prev, v) || Falls(prev, v) then
      if hasCounter && Rises(prev, v) then
        Updated(inst.(max := inst.max + 1.0),
                [ResourceChanged(o, i, RSC_DIGITAL_INPUT_STATE), ResourceChanged(o, i, RSC_DIGITAL_INPUT_COUNTER)])
      else
        Updated(inst, [ResourceChanged(o, i, RSC_DIGITAL_INPUT_STATE)])
    else Updated(inst, [])
  }

  function DigitalUpdate(hasCounter: bool, inst: SensorInstance, prev: real, values: seq<real>, o: uint16, i: uint16): (r: Updated)
    ensures r.inst == inst.(max := r.inst.max)
    decreases |values|
  {
    if |values| == 0 then Updated(inst, [])
    else
      var first := DigitalStep(hasCounter, inst, prev, values[0], o, i);
      var rest := DigitalUpdate(hasCounter, first.inst, values[0], values[1..], o, i);
      Updated(rest.inst, first.events + rest.events)
  }

  /** Over any sequence of values, the counter grows by exactly the number of
      rises (and only with a counter resource), one state notification is
      raised per change, and nothing but the counter is touched. */
  lemma {:induction false} DigitalUpdateCounts(hasCounter: bool, inst: SensorInstance, prev: real, values: seq<real>, o: uint16, i: uint16)
    ensures var r := DigitalUpdate(hasCounter, inst, prev, values, o, i);
            && r.inst == inst.(max := inst.max + (if hasCounter then CountRises(prev, values) else 0) as real)
            && CountFor(r.events, RSC_DIGITAL_INPUT_STATE) == CountChanges(prev, values)
            && CountFor(r.events, RSC_DIGITAL_INPUT_COUNTER) == (if hasCounter then CountRises(prev, values) else 0)
            && |r.events| == CountChanges(prev, values) + (if hasCounter then CountRises(prev, values) else 0)
    decreases |values|
  {
    if |values| > 0 {
      var first := DigitalStep(hasCounter, inst, prev, values[0], o, i);
      DigitalUpdateCounts(hasCounter, first.inst, values[0], values[1..], o, i);
      var rest := DigitalUpdate(hasCounter, first.inst, values[0], values[1..], o, i);
      CountForAppend(first.events, rest.events, RSC_DIGITAL_INPUT_STATE);
      CountForAppend(first.events, rest.events, RSC_DIGITAL_INPUT_COUNTER);
    }
  }

  /** The range rule for one new value: a value that differs from the previous
      one raises a notification on the value resource and extends the
      measured minimum or maximum it falls outside of. */
  function RangeStep(hasMin: bool, hasMax: bool, valueId: uint16, inst: SensorInstance, prev: real, v: real, o: uint16, i: uint16): Updated
  {
    if ApproxEq(v, prev) then Updated(inst, [])
    else
      var changed := [ResourceChanged(o, i, valueId)];
      if hasMin && v < inst.min then
        Updated(inst.(min := v), changed + [ResourceChanged(o, i, RSC_MIN_MEASURED_VALUE)])
      else if hasMax && v > inst.max then
        Updated(inst.(max := v), changed + [ResourceChanged(o, i, RSC_MAX_MEASURED_VALUE)])
      else Updated(inst, changed)
  }

  function RangeUpdate(hasMin: bool, hasMax: bool, valueId: uint16, inst: SensorInstance, prev: real, values: seq<real>, o: uint16, i: uint16): (r: Updated)
    // the measured minimum never rises, the maximum never falls, their order
    // is kept, and nothing else changes
    ensures r.inst.min <= inst.min && r.inst.max >= inst.max
    ensures inst.min <= inst.max ==> r.inst.min <= r.inst.max
    ensures r.inst == inst.(min := r.inst.min, max := r.inst.max)
    // each bound is either untouched or one of the new values
    ensures r.inst.min == inst.min || r.inst.min in values
    ensures r.inst.max == inst.max || r.inst.max in values
    decreases |values|
  {
    if |values| == 0 then Updated(inst, [])
    else
      var first := RangeStep(hasMin, hasMax, valueId, inst, prev, values[0], o, i);
      var rest := RangeUpdate(hasMin, hasMax, valueId, first.inst, values[0], values[1..], o, i);
      Updated(rest.inst, first.events + rest.events)
  }

  /** The value each new value of a sequence is compared with: the current
      value for the first, the one before it for the others. */
  function PrevOf(prev: real, values: seq<real>, k: nat): real
    requires k < |values|
  {
    if k == 0 then prev else values[k - 1]
  }

  /** On an instance with both measured bounds, every value that differs from
      the one before it ends up inside the final [min, max]: it pulls the
      minimum down or pushes the maximum up when it falls outside, and later
      values only widen the bounds. */
  lemma {:induction false} RangeUpdateCovers(hasMin: bool, hasMax: bool, valueId: uint16, inst: SensorInstance, prev: real, values: seq<real>, o: uint16, i: uint16)
    requires hasMin && hasMax && inst.min <= inst.max
    ensures var r := RangeUpdate(hasMin, hasMax, valueId, inst, prev, values, o, i);
            forall k :: 0 <= k < |values| && !ApproxEq(values[k], PrevOf(prev, values, k)) ==>
                          r.inst.min <= values[k] <= r.inst.max
    decreases |values|
  {
    if |values| > 0 {
      var first := RangeStep(hasMin, hasMax, valueId, inst, prev, values[0], o, i);
      RangeUpdateCovers(hasMin, hasMax, valueId, first.inst, values[0], values[1..], o, i);
      var r := RangeUpdate(hasMin, hasMax, valueId, inst, prev, values, o, i);
      forall k | 0 <= k < |values| && !ApproxEq(values[k], PrevOf(prev, values, k))
        ensures r.inst.min <= values[k] <= r.inst.max
      {
        if k > 0 {
          assert values[1..][k - 1] == values[k];
          assert PrevOf(values[0], values[1..], k - 1) == PrevOf(prev, values, k);
        }
      }
    }
  }

  /** The resource whose value a range-like instance publishes. */
  function ValueResourceId(resources: seq<uint16>): uint16
  {
    // the level resource mirrors the source's handling of level-control
    // objects, which this adapter never creates
    if RSC_LEVEL in resources then RSC_LEVEL
    else if RSC_COMPASS_DIRECTION in resources then RSC_COMPASS_DIRECTION
    else if RSC_ANALOG_INPUT_CURRENT_VALUE in resources then RSC_ANALOG_INPUT_CURRENT_VALUE
    else RSC_SENSOR_VALUE
  }

  /** Applies new values to an instance: the digital rule when the instance
      has a digital-input state, the range rule otherwise. The first value is
      compared with the instance's current value. */
  function UpdateResourceValues(inst: SensorInstance, values: seq<real>, o: uint16, i: uint16): (r: Updated)
    // only the measured bounds (the counter, on a digital instance) change
    ensures r.inst == inst.(min := r.inst.min, max := r.inst.max)
  {
    var res := inst.resources;
    if RSC_DIGITAL_INPUT_STATE in res then
      DigitalUpdate(RSC_DIGITAL_INPUT_COUNTER in res, inst, inst.value, values, o, i)
    else
      RangeUpdate(RSC_MIN_MEASURED_VALUE in res, RSC_MAX_MEASURED_VALUE in res, ValueResourceId(res),
                  inst, inst.value, values, o, i)
  }

  /** One new value on a digital instance: no notification for a change of at
      most EPSILON, one state notification otherwise, and one counter
      notification plus one pulse exactly for a rise on an instance with a
      counter. */
  lemma DigitalSingleValue(inst: SensorInstance, v: real, o: uint16, i: uint16)
    requires RSC_DIGITAL_INPUT_STATE in inst.resources
    ensures var r := UpdateResourceValues(inst, [v], o, i);
            var hasCounter := RSC_DIGITAL_INPUT_COUNTER in inst.resources;
            var pulse := hasCounter && Rises(inst.value, v);
            && (ApproxEq(v, inst.value) ==> r == Updated(inst, []))
            && (!ApproxEq(v, inst.value) ==>
                  |r.events| == (if pulse then 2 else 1) &&
                  r.events[0] == ResourceChanged(o, i, RSC_DIGITAL_INPUT_STATE))
            && r.inst == inst.(max := if pulse then inst.max + 1.0 else inst.max)
  {
    var hasCounter := RSC_DIGITAL_INPUT_COUNTER in inst.resources;
    var first := DigitalStep(hasCounter, inst, inst.value, v, o, i);
    assert [v][1..] == [];
    assert DigitalUpdate(hasCounter, first.inst, v, [], o, i) == Updated(first.inst, []);
    assert first.events + [] == first.events;
  }

  /** One new value on a range instance: nothing happens unless it differs
      from the current value, and then exactly one notification is raised on
      the value resource before any bound notification, and the value becomes
      the new minimum when below it, or else the new maximum when above it. */
  lemma RangeSingleValue(inst: SensorInstance, v: real, o: uint16, i: uint16)
    requires RSC_DIGITAL_INPUT_STATE !in inst.resources
    ensures var r := UpdateResourceValues(inst, [v], o, i);
            var hasMin, hasMax := RSC_MIN_MEASURED_VALUE in inst.resources, RSC_MAX_MEASURED_VALUE in inst.resources;
            var lower := !ApproxEq(v, inst.value) && hasMin && v < inst.min;
            var upper := !ApproxEq(v, inst.value) && !lower && hasMax && v > inst.max;
            && (ApproxEq(v, inst.value) ==> r == Updated(inst, []))
            && (!ApproxEq(v, inst.value) ==>
                  1 <= |r.events| <= 2 &&
                  r.events[0] == ResourceChanged(o, i, ValueResourceId(inst.resources)))
            && r.inst.min == (if lower then v else inst.min)
            && r.inst.max == (if upper then v else inst.max)
            && (hasMin && hasMax && inst.min <= inst.max && !ApproxEq(v, inst.value) ==>
                  r.inst.min <= v <= r.inst.max)
  {
    var res := inst.resources;
    var hasMin, hasMax := RSC_MIN_MEASURED_VALUE in res, RSC_MAX_MEASURED_VALUE in res;
    var first := RangeStep(hasMin, hasMax, ValueResourceId(res), inst, inst.value, v, o, i);
    assert [v][1..] == [];
    assert RangeUpdate(hasMin, hasMax, ValueResourceId(res), first.inst, v, [], o, i) == Updated(first.inst, []);
    assert first.events + [] == first.events;
  }

  // ---------------------------------------------------------------------
  // The data callback

  /** The state threaded through a callback's pass over its entries. */
  datatype Pass = Pass(status: Status, data: seq<Data>, instances: map<uint16, SensorInstance>, events: seq<Event>)

  /** Every entry addresses an existing instance; the router guarantees it. */
  predicate Addressed(data: seq<Data>, instances: map<uint16, SensorInstance>)
  {
    forall k :: 0 <= k < |data| ==> data[k].instanceId in instances
  }

  /** The C cast of a float to a 32-bit integer truncates toward zero. */
  function TruncateToInt(r: real): int
  {
    if r >= 0.0 then r.Floor else -((-r).Floor)
  }

  /** The C string held in `b`: its bytes up to, not including, the first 0. */
  function UntilNul(b: seq<byte>): (r: seq<byte>)
    ensures r <= b && 0 !in r
    ensures |r| < |b| ==> b[|r|] == 0
    decreases |b|
  {
    if |b| == 0 || b[0] == 0 then [] else [b[0]] + UntilNul(b[1..])
  }

  /** What a read of a stored text returns: its length is taken with strlen,
      so it stops at the first 0 byte; an absent text reads as empty. */
  function TextOf(s: Option<seq<byte>>): seq<byte>
  {
    match s
    case Some(b) => UntilNul(b)
    case None => []
  }

  /** The value of one entry read from an instance. */
  function ReadEntry(d: Data, inst: SensorInstance): (r: Data)
    ensures r == d.(value := r.value)
    // the level resource mirrors the source's handling of level-control
    // objects, which this adapter never creates
    ensures d.resourceId in {RSC_SENSOR_VALUE, RSC_ANALOG_INPUT_CURRENT_VALUE, RSC_CUMULATIVE_ACTIVE_POWER,
                             RSC_COMPASS_DIRECTION, RSC_LEVEL} ==>
              r.value == d.value.(asFloat := inst.value)
    ensures d.resourceId == RSC_DIGITAL_INPUT_STATE ==> r.value == d.value.(asBoolean := inst.value != 0.0)
    ensures d.resourceId == RSC_DIGITAL_INPUT_COUNTER ==> r.value == d.value.(asInteger := TruncateToInt(inst.max))
    ensures d.resourceId == RSC_MIN_MEASURED_VALUE ==> r.value == d.value.(asFloat := inst.min)
    ensures d.resourceId == RSC_MAX_MEASURED_VALUE ==> r.value == d.value.(asFloat := inst.max)
    ensures d.resourceId == RSC_MIN_RANGE_VALUE ==> r.value == d.value.(asFloat := inst.rangeMin)
    ensures d.resourceId == RSC_MAX_RANGE_VALUE ==> r.value == d.value.(asFloat := inst.rangeMax)
    // texts read up to their first 0 byte
    ensures d.resourceId == RSC_SENSOR_UNITS ==> r.value == d.value.(asBuffer := TextOf(inst.unit))
    ensures d.resourceId == RSC_APPLICATION_TYPE || d.resourceId == RSC_SENSOR_TYPE ==>
              r.value == d.value.(asBuffer := TextOf(inst.appType))
  {
    var v := d.value;
    var rid := d.resourceId;
    if rid == RSC_SENSOR_VALUE || rid == RSC_ANALOG_INPUT_CURRENT_VALUE || rid == RSC_CUMULATIVE_ACTIVE_POWER
       || rid == RSC_COMPASS_DIRECTION || rid == RSC_LEVEL then d.(value := v.(asFloat := inst.value))
    else if rid == RSC_DIGITAL_INPUT_STATE then d.(value := v.(asBoolean := inst.value != 0.0))
    else if rid == RSC_DIGITAL_INPUT_COUNTER then d.(value := v.(asInteger := TruncateToInt(inst.max)))
    else if rid == RSC_SENSOR_UNITS then d.(value := v.(asBuffer := TextOf(inst.unit)))
    else if rid == RSC_MIN_MEASURED_VALUE then d.(value := v.(asFloat := inst.min))
    else if rid == RSC_MAX_MEASURED_VALUE then d.(value := v.(asFloat := inst.max))
    else if rid == RSC_MIN_RANGE_VALUE then d.(value := v.(asFloat := inst.rangeMin))
    else if rid == RSC_MAX_RANGE_VALUE then d.(value := v.(asFloat := inst.rangeMax))
    else if rid == RSC_APPLICATION_TYPE || rid == RSC_SENSOR_TYPE then d.(value := v.(asBuffer := TextOf(inst.appType)))
    else d
  }

  function ReadAll(data: seq<Data>, instances: map<uint16, SensorInstance>): (r: seq<Data>)
    requires Addressed(data, instances)
    ensures |r| == |data|
    ensures forall k :: 0 <= k < |data| ==> r[k] == ReadEntry(data[k], instances[data[k].instanceId])
  {
    seq(|data|, k requires 0 <= k < |data| => ReadEntry(data[k], instances[data[k].instanceId]))
  }

  /** The text a written buffer becomes; an empty buffer clears the attribute. */
  function BufferToText(b: seq<byte>): Option<seq<byte>>
  {
    if |b| == 0 then None else Some(b)
  }

  /** `after` differs from `before` at most in its application type. */
  predicate OnlyAppTypeChanged(before: SensorInstance, after: SensorInstance)
  {
    after == before.(appType := after.appType)
  }

  /** Write over the first `n` entries: only the application type is writable;
      any other resource sets 4.05, and the pass goes on. */
  function WritePrefix(data: seq<Data>, n: nat, instances: map<uint16, SensorInstance>): (r: Pass)
    requires n <= |data| && Addressed(data, instances)
    ensures r.instances.Keys == instances.Keys
    ensures r.status == NoError || r.status == MethodNotAllowed
    // the result is 4.05 exactly when some entry is not the application type
    ensures r.status == MethodNotAllowed <==> exists k :: 0 <= k < n && data[k].resourceId != RSC_APPLICATION_TYPE
    // a write changes nothing but application types
    ensures forall id :: id in instances ==> OnlyAppTypeChanged(instances[id], r.instances[id])
    decreases n
  {
    if n == 0 then Pass(NoError, data, instances, [])
    else
      var acc := WritePrefix(data, n - 1, instances);
      var d := data[n - 1];
      if d.resourceId == RSC_APPLICATION_TYPE then
        var inst := acc.instances[d.instanceId];
        acc.(instances := acc.instances[d.instanceId := inst.(appType := BufferToText(d.value.asBuffer))])
      else acc.(status := MethodNotAllowed)
  }

  /** The outcome of executing one entry, before aggregation. */
  function ExecOutcome(d: Data): Status
  {
    if d.typ != Undefined then BadRequest
    else if d.resourceId == RSC_RESET_MIN_AND_MAX_MEASURED_VALUES || d.resourceId == RSC_RESET_CUMULATIVE_ENERGY
            || d.resourceId == RSC_DIGITAL_INPUT_COUNTER_RESET then NoError
    else MethodNotAllowed
  }

  /** The effect of one executed entry on its instance. */
  function ExecEffect(d: Data, inst: SensorInstance): Updated
  {
    var o, i := d.objectId, d.instanceId;
    if d.typ != Undefined then Updated(inst, [])
    else if d.resourceId == RSC_RESET_MIN_AND_MAX_MEASURED_VALUES then
      Updated(inst.(min := inst.value, max := inst.value),
              [ResourceChanged(o, i, RSC_MIN_MEASURED_VALUE), ResourceChanged(o, i, RSC_MAX_MEASURED_VALUE)])
    else if d.resourceId == RSC_RESET_CUMULATIVE_ENERGY then
      Updated(inst.(value := 0.0), [ResourceChanged(o, i, RSC_CUMULATIVE_ACTIVE_POWER)])
    else if d.resourceId == RSC_DIGITAL_INPUT_COUNTER_RESET then
      Updated(inst.(max := 0.0), [ResourceChanged(o, i, RSC_DIGITAL_INPUT_COUNTER)])
    else Updated(inst, [])
  }

  /** Execute over the first `n` entries. An argument sets 4.00 outright;
      otherwise the entry's outcome replaces the result only at index 0 or on
      success. */
  function ExecutePrefix(data: seq<Data>, n: nat, instances: map<uint16, SensorInstance>): (r: Pass)
    requires n <= |data| && Addressed(data, instances)
    ensures r.instances.Keys == instances.Keys
    decreases n
  {
    if n == 0 then Pass(NoError, data, instances, [])
    else
      var acc := ExecutePrefix(data, n - 1, instances);
      var d := data[n - 1];
      var effect := ExecEffect(d, acc.instances[d.instanceId]);
      var status :=
        if d.typ != Undefined then BadRequest
        else if n - 1 == 0 || ExecOutcome(d) == NoError then ExecOutcome(d)
        else acc.status;
      Pass(status, data, acc.instances[d.instanceId := effect.inst], acc.events + effect.events)
  }

  /** The data callback of every sensor object. */
  function IpsoObjectCallback(op: Operation, data: seq<Data>, instances: map<uint16, SensorInstance>): (r: Pass)
    requires Addressed(data, instances)
    ensures r.instances.Keys == instances.Keys
    ensures op == Read ==> r.status == NoError && r.instances == instances && r.events == []
    ensures op == Free ==> r == Pass(NoError, data, instances, [])
  {
    match op
    case Read => Pass(NoError, ReadAll(data, instances), instances, [])
    case Write => WritePrefix(data, |data|, instances)
    case Execute => ExecutePrefix(data, |data|, instances)
    case Free => Pass(NoError, data, instances, [])
    case Create => Pass(NoError, data, instances, [])
    case Delete => Pass(NoError, data, instances, [])
  }

  /** An entry whose outcome can become the Execute result: the first one, one
      carrying an argument, and one that succeeds. */
  predicate Sticky(data: seq<Data>, k: nat)
    requires k < |data|
  {
    k == 0 || data[k].typ != Undefined || ExecOutcome(data[k]) == NoError
  }

  /** The last sticky entry among the first `n`. */
  function LastSticky(data: seq<Data>, n: nat): (k: nat)
    requires 0 < n <= |data|
    ensures k < n && Sticky(data, k)
    ensures forall j :: k < j < n ==> !Sticky(data, j)
    decreases n
  {
    if Sticky(data, n - 1) then n - 1 else LastSticky(data, n - 1)
  }

  /** The Execute result is the outcome of the last sticky entry (success for
      an empty batch); in particular a 4.05 at an index above 0 never becomes
      the result. */
  lemma {:induction false} ExecuteResultIsLastSticky(data: seq<Data>, n: nat, instances: map<uint16, SensorInstance>)
    requires n <= |data| && Addressed(data, instances)
    ensures n == 0 ==> ExecutePrefix(data, n, instances).status == NoError
    ensures n > 0 ==> ExecutePrefix(data, n, instances).status == ExecOutcome(data[LastSticky(data, n)])
    ensures n > 0 && ExecutePrefix(data, n, instances).status == MethodNotAllowed ==> ExecOutcome(data[0]) == MethodNotAllowed
    decreases n
  {
    if n > 1 {
      ExecuteResultIsLastSticky(data, n - 1, instances);
    }
  }

  /** A later Read of the application (or sensor) type returns the written
      application type up to its first 0 byte, and so all of it when it holds
      none. */
  lemma WriteThenReadAppType(d: Data, q: Data, instances: map<uint16, SensorInstance>)
    requires d.resourceId == RSC_APPLICATION_TYPE && d.instanceId in instances
    requires q.instanceId == d.instanceId
    requires q.resourceId == RSC_APPLICATION_TYPE || q.resourceId == RSC_SENSOR_TYPE
    ensures var after := WritePrefix([d], 1, instances);
            var read := IpsoObjectCallback(Read, [q], after.instances).data[0].value.asBuffer;
            && after.status == NoError
            && read == UntilNul(d.value.asBuffer)
            && (0 !in d.value.asBuffer ==> read == d.value.asBuffer)
  {
    assert Addressed([d], instances);
    var after := WritePrefix([d], 1, instances);
    assert after.instances[d.instanceId].appType == BufferToText(d.value.asBuffer);
    assert Addressed([q], after.instances);
  }

  /** Executing "reset min and max" sets both bounds to the current value; the
      energy reset zeroes the value; the counter reset zeroes the counter. */
  lemma ResetEffects(d: Data, inst: SensorInstance)
    requires d.typ == Undefined
    ensures d.resourceId == RSC_RESET_MIN_AND_MAX_MEASURED_VALUES ==>
              var u := ExecEffect(d, inst).inst; u.min == inst.value && u.max == inst.value
    ensures d.resourceId == RSC_RESET_CUMULATIVE_ENERGY ==> ExecEffect(d, inst).inst.value == 0.0
    ensures d.resourceId == RSC_DIGITAL_INPUT_COUNTER_RESET ==> ExecEffect(d, inst).inst.max == 0.0
    ensures ExecOutcome(d) != NoError ==> ExecEffect(d, inst) == Updated(inst, [])
  {
  }

  // ---------------------------------------------------------------------
  // Public API

  /** The lowest instance id at or above `from` that is not in use, below the
      0xFFFF sentinel. */
  function NewInstanceId(used: set<uint16>, from: nat): (r: Option<uint16>)
    requires from <= ID_ALL
    ensures r.Some? ==> r.value !in used && r.value != ID_ALL && r.value >= from
    ensures r.Some? ==> forall j :: from <= j < r.value ==> j in used
    ensures r.None? ==> forall j :: from <= j < ID_ALL ==> j in used
    decreases ID_ALL - from
  {
    if from == ID_ALL then None
    else if from !in used then Some(from)
    else NewInstanceId(used, from + 1)
  }

  datatype Added = Added(status: Status, state: IpsoState, handle: Option<uint32>)

  /** The state with kind `t` registered: unchanged when it already is, a new
      object without instances otherwise. */
  function Registered(state: IpsoState, t: uint16): (r: IpsoState)
    ensures t in r && r.Keys == state.Keys + {t}
    ensures t in state ==> r == state
    ensures t !in state ==> r[t] == IpsoObject(ResourceDesc(t), map[])
    ensures forall u :: u in state && u != t ==> r[u] == state[u]
  {
    if t in state then state else state[t := IpsoObject(ResourceDesc(t), map[])]
  }

  /** Whether the optional range was supplied: either bound away from zero. */
  predicate WithRange(rangeMin: real, rangeMax: real)
  {
    !ApproxEq(rangeMin, 0.0) || !ApproxEq(rangeMax, 0.0)
  }

  /** Adds a sensor instance of kind `t`, registering the kind's object first
      when it is the first instance. */
  function AddSensor(state: IpsoState, t: uint16, value: real, unit: Option<seq<byte>>, appType: Option<seq<byte>>,
                     rangeMin: real, rangeMax: real): (r: Added)
    ensures t == LEVEL_CONTROL ==> r == Added(BadOption, state, None)
    // the value is checked before anything is allocated or registered
    ensures t != LEVEL_CONTROL && CheckResourceValue(t, value) != NoError ==> r == Added(NotAcceptable, state, None)
    ensures r.status == NoError <==> r.handle.Some?
    // the kind's object is only registered on the path that goes on to succeed
    ensures r.status != NoError ==> r.state == state
  {
    if t == LEVEL_CONTROL then Added(BadOption, state, None)
    else
      var check := CheckResourceValue(t, value);
      if check != NoError then Added(check, state, None)
      else if t !in state && |ResourceDesc(t)| == 0 then Added(BadOption, state, None)
      else
        var registered := Registered(state, t);
        var obj := registered[t];
        var resources := ResourceList(t, WithRange(rangeMin, rangeMax), unit.Some?, appType.Some?);
        if |resources| == 0 then Added(BadOption, registered, None)
        else
          match NewInstanceId(obj.instances.Keys, 0)
          case None => Added(InternalError, registered, None)
          case Some(id) =>
            var inst := NewSensor(t, value, unit, appType, rangeMin, rangeMax);
            Added(NoError, registered[t := obj.(instances := obj.instances[id := inst])], Some(Handle(t, id)))
  }

  /** On a valid state, exactly the adds that pass the argument checks and find
      a free instance id succeed. */
  lemma AddSensorSucceeds(state: IpsoState, t: uint16, value: real, unit: Option<seq<byte>>, appType: Option<seq<byte>>,
                          rangeMin: real, rangeMax: real)
    requires Valid(state)
    ensures AddSensor(state, t, value, unit, appType, rangeMin, rangeMax).status == NoError <==>
              && t != LEVEL_CONTROL && CheckResourceValue(t, value) == NoError && FamilyOf(t) != Unsupported
              && (t in state ==> exists j: uint16 :: j != ID_ALL && j !in state[t].instances)
  {
    if t != LEVEL_CONTROL && CheckResourceValue(t, value) == NoError && FamilyOf(t) != Unsupported {
      assert |ResourceList(t, WithRange(rangeMin, rangeMax), unit.Some?, appType.Some?)| > 0;
      if t in state {
        assert ValidObject(t, state[t]);
        var nid := NewInstanceId(state[t].instances.Keys, 0);
        if nid.Some? {
          assert nid.value != ID_ALL && nid.value !in state[t].instances;
        }
      } else {
        assert NewInstanceId({}, 0) == Some(0);
      }
    }
  }

  /** The instance a successful add creates. */
  function NewSensor(t: uint16, value: real, unit: Option<seq<byte>>, appType: Option<seq<byte>>,
                     rangeMin: real, rangeMax: real): SensorInstance
  {
    SensorInstance(value, value, value, rangeMin, rangeMax, unit, appType,
                   ResourceList(t, WithRange(rangeMin, rangeMax), unit.Some?, appType.Some?))
  }

  /** The id and state a successful add ends with. */
  lemma AddSensorShape(state: IpsoState, t: uint16, value: real, unit: Option<seq<byte>>, appType: Option<seq<byte>>,
                       rangeMin: real, rangeMax: real)
    requires AddSensor(state, t, value, unit, appType, rangeMin, rangeMax).status == NoError
    ensures var r := AddSensor(state, t, value, unit, appType, rangeMin, rangeMax);
            var obj := Registered(state, t)[t];
            var nid := NewInstanceId(obj.instances.Keys, 0);
            && t != ID_ALL && FamilyOf(t) != Unsupported
            && nid.Some?
            && r.handle == Some(Handle(t, nid.value))
            && r.state == Registered(state, t)[t := obj.(instances := obj.instances[nid.value := NewSensor(t, value, unit, appType, rangeMin, rangeMax)])]
  {
    assert |ResourceList(t, WithRange(rangeMin, rangeMax), unit.Some?, appType.Some?)| > 0;
  }

  /** A successful add creates exactly one instance, with min = max = value and
      the given range and attributes, and names it by a valid handle; every
      other instance and object is left alone. */
  lemma AddSensorSuccess(state: IpsoState, t: uint16, value: real, unit: Option<seq<byte>>, appType: Option<seq<byte>>,
                         rangeMin: real, rangeMax: real)
    requires AddSensor(state, t, value, unit, appType, rangeMin, rangeMax).status == NoError
    ensures var r := AddSensor(state, t, value, unit, appType, rangeMin, rangeMax);
            var id := HandleInstanceId(r.handle.value);
            && r.state.Keys == state.Keys + {t}
            && (t in state ==> id !in state[t].instances && r.state[t].instances.Keys == state[t].instances.Keys + {id})
            && (t !in state ==> r.state[t].instances.Keys == {id})
            && r.state[t].instances[id] == NewSensor(t, value, unit, appType, rangeMin, rangeMax)
  {
    AddSensorShape(state, t, value, unit, appType, rangeMin, rangeMax);
    var obj := Registered(state, t)[t];
    HandleRoundTrip(t, NewInstanceId(obj.instances.Keys, 0).value);
  }

  /** The handle of a new sensor names its kind and is never the invalid handle. */
  lemma AddSensorHandle(state: IpsoState, t: uint16, value: real, unit: Option<seq<byte>>, appType: Option<seq<byte>>,
                        rangeMin: real, rangeMax: real)
    requires AddSensor(state, t, value, unit, appType, rangeMin, rangeMax).status == NoError
    ensures var h := AddSensor(state, t, value, unit, appType, rangeMin, rangeMax).handle.value;
            HandleObjectId(h) == t && h != INVALID_SENSOR_ID
  {
    AddSensorShape(state, t, value, unit, appType, rangeMin, rangeMax);
    var obj := Registered(state, t)[t];
    var id := NewInstanceId(obj.instances.Keys, 0).value;
    HandleIsValid(t, id);
    HandleRoundTrip(t, id);
  }

  /** A successful add leaves every existing instance, of its kind or any
      other, as it was. */
  lemma AddSensorFrame(state: IpsoState, t: uint16, value: real, unit: Option<seq<byte>>, appType: Option<seq<byte>>,
                       rangeMin: real, rangeMax: real)
    requires AddSensor(state, t, value, unit, appType, rangeMin, rangeMax).status == NoError
    ensures var r := AddSensor(state, t, value, unit, appType, rangeMin, rangeMax);
            && (t in state ==> forall j :: j in state[t].instances ==> r.state[t].instances[j] == state[t].instances[j])
            && (forall u :: u in state && u != t ==> r.state[u] == state[u])
  {
    AddSensorShape(state, t, value, unit, appType, rangeMin, rangeMax);
  }

  /** Inserting a well-formed instance into a registered object of a supported
      kind gives a valid state, provided every other object was valid. */
  lemma InsertKeepsValid(s: IpsoState, t: uint16, id: uint16, inst: SensorInstance)
    requires forall u :: u in s && u != t ==> ValidObject(u, s[u])
    requires t in s && FamilyOf(t) != Unsupported && s[t].desc == ResourceDesc(t)
    requires ID_ALL !in s[t].instances && id != ID_ALL
    requires forall j :: j in s[t].instances ==> DistinctWithin(s[t].instances[j].resources, s[t].desc)
    requires DistinctWithin(inst.resources, ResourceDesc(t))
    ensures Valid(s[t := s[t].(instances := s[t].instances[id := inst])])
  {
    var s' := s[t := s[t].(instances := s[t].instances[id := inst])];
    assert id in s'[t].instances.Keys;
    assert ValidObject(t, s'[t]);
    forall u | u in s'
      ensures ValidObject(u, s'[u])
    {
      if u != t {
        assert s'[u] == s[u];
      }
    }
  }

  lemma AddSensorKeepsValid(state: IpsoState, t: uint16, value: real, unit: Option<seq<byte>>, appType: Option<seq<byte>>,
                            rangeMin: real, rangeMax: real)
    requires Valid(state)
    ensures Valid(AddSensor(state, t, value, unit, appType, rangeMin, rangeMax).state)
  {
    var r := AddSensor(state, t, value, unit, appType, rangeMin, rangeMax);
    if r.status == NoError {
      AddSensorShape(state, t, value, unit, appType, rangeMin, rangeMax);
      var reg := Registered(state, t);
      var id := NewInstanceId(reg[t].instances.Keys, 0).value;
      if t in state {
        assert ValidObject(t, state[t]);
      }
      InsertKeepsValid(reg, t, id, NewSensor(t, value, unit, appType, rangeMin, rangeMax));
    }
  }

  datatype Changed = Changed(status: Status, state: IpsoState)

  /** Removes the sensor named by a handle; the object goes with its last instance. */
  function RemoveSensor(state: IpsoState, h: uint32): (r: Changed)
    ensures !IsIpsoSensorType(HandleObjectId(h)) ==> r == Changed(BadOption, state)
    ensures r.status != NoError ==> r.state == state
    ensures r.status == NoError ==>
              var t, id := HandleObjectId(h), HandleInstanceId(h);
              && t in state && id in state[t].instances
              && (state[t].instances.Keys == {id} ==> r.state == state - {t})
              && (state[t].instances.Keys != {id} ==>
                    r.state == state[t := state[t].(instances := state[t].instances - {id})])
  {
    var t, id := HandleObjectId(h), HandleInstanceId(h);
    if !IsIpsoSensorType(t) then Changed(BadOption, state)
    else if t !in state then Changed(NotFound, state)
    else if id !in state[t].instances then Changed(NotFound, state)
    else if state[t].instances.Keys == {id} then Changed(NoError, state - {t})
    else Changed(NoError, state[t := state[t].(instances := state[t].instances - {id})])
  }

  /** Unknown objects and instances are reported as 4.04. */
  lemma RemoveSensorNotFound(state: IpsoState, h: uint32)
    requires IsIpsoSensorType(HandleObjectId(h))
    requires HandleObjectId(h) !in state || HandleInstanceId(h) !in state[HandleObjectId(h)].instances
    ensures RemoveSensor(state, h) == Changed(NotFound, state)
  {
  }

  /** Removing an existing instance of a sensor kind succeeds. */
  lemma RemoveFound(state: IpsoState, t: uint16, id: uint16)
    requires IsIpsoSensorType(t) && t in state && id in state[t].instances
    ensures var r := RemoveSensor(state, Handle(t, id));
            && r.status == NoError
            && (state[t].instances.Keys == {id} ==> r.state == state - {t})
            && (state[t].instances.Keys != {id} ==> r.state == state[t := state[t].(instances := state[t].instances - {id})])
  {
    HandleRoundTrip(t, id);
  }

  lemma RemoveSensorKeepsValid(state: IpsoState, h: uint32)
    requires Valid(state)
    ensures Valid(RemoveSensor(state, h).state)
  {
    var r := RemoveSensor(state, h);
    var t, id := HandleObjectId(h), HandleInstanceId(h);
    if r.status == NoError && state[t].instances.Keys != {id} {
      var rest := state[t].instances - {id};
      assert rest.Keys == state[t].instances.Keys - {id};
      assert rest.Keys != {};
      forall u | u in r.state
        ensures ValidObject(u, r.state[u])
      {
        assert ValidObject(u, state[u]);
      }
    }
  }

  /** Removing a sensor just added gives back the state before the add. */
  lemma RemoveUndoesAdd(state: IpsoState, t: uint16, value: real, unit: Option<seq<byte>>, appType: Option<seq<byte>>,
                        rangeMin: real, rangeMax: real)
    requires Valid(state)
    requires AddSensor(state, t, value, unit, appType, rangeMin, rangeMax).status == NoError
    ensures var a := AddSensor(state, t, value, unit, appType, rangeMin, rangeMax);
            RemoveSensor(a.state, a.handle.value) == Changed(NoError, state)
  {
    AddSensorShape(state, t, value, unit, appType, rangeMin, rangeMax);
    var obj := Registered(state, t)[t];
    var id := NewInstanceId(obj.instances.Keys, 0).value;
    assert FamilyOf(t) != Unsupported by {
      if t in state {
        assert ValidObject(t, state[t]);
      }
    }
    SensorTypesAreSupportedKinds(t);
    RemoveUndoesInsert(state, t, id, NewSensor(t, value, unit, appType, rangeMin, rangeMax));
  }

  /** Removing an instance just inserted under a fresh id restores the state. */
  lemma RemoveUndoesInsert(state: IpsoState, t: uint16, id: uint16, inst: SensorInstance)
    requires Valid(state) && IsIpsoSensorType(t)
    requires t in state ==> id !in state[t].instances
    ensures var obj := Registered(state, t)[t];
            RemoveSensor(Registered(state, t)[t := obj.(instances := obj.instances[id := inst])], Handle(t, id))
              == Changed(NoError, state)
  {
    HandleRoundTrip(t, id);
    var obj := Registered(state, t)[t];
    if t in state {
      assert Registered(state, t) == state;
      RemoveUndoesInsertExisting(state, t, id, inst);
    } else {
      assert obj.instances[id := inst] == map[id := inst];
      RemoveUndoesInsertNew(state, t, id, inst);
    }
  }

  /** The case of a kind without instances: its object goes with the new one. */
  lemma RemoveUndoesInsertNew(state: IpsoState, t: uint16, id: uint16, inst: SensorInstance)
    requires IsIpsoSensorType(t) && t !in state
    ensures RemoveSensor(state[t := IpsoObject(ResourceDesc(t), map[id := inst])], Handle(t, id))
              == Changed(NoError, state)
  {
    HandleRoundTrip(t, id);
    var after := state[t := IpsoObject(ResourceDesc(t), map[id := inst])];
    assert after[t].instances.Keys == {id};
    assert RemoveSensor(after, Handle(t, id)) == Changed(NoError, after - {t}) by {
      RemoveFound(after, t, id);
    }
    assert after - {t} == state;
  }

  /** The case of a kind that already had instances: only the new one goes. */
  lemma RemoveUndoesInsertExisting(state: IpsoState, t: uint16, id: uint16, inst: SensorInstance)
    requires Valid(state) && IsIpsoSensorType(t)
    requires t in state && id !in state[t].instances
    ensures RemoveSensor(state[t := state[t].(instances := state[t].instances[id := inst])], Handle(t, id))
              == Changed(NoError, state)
  {
    HandleRoundTrip(t, id);
    var before := state[t].instances;
    var after := state[t := state[t].(instances := before[id := inst])];
    RemoveFound(after, t, id);
    assert ValidObject(t, state[t]);
    assert after[t].instances.Keys != {id} by {
      var j :| j in before;
      assert j != id && j in after[t].instances.Keys;
    }
    assert after[t].instances - {id} == before;
    assert after[t := state[t]] == state;
  }

  datatype Applied = Applied(status: Status, state: IpsoState, events: seq<Event>)

  /** Reports a new value for the sensor named by a handle. */
  function UpdateValue(state: IpsoState, h: uint32, v: real): (r: Applied)
    // the value is checked before anything is looked up or changed
    ensures CheckResourceValue(HandleObjectId(h), v) != NoError ==> r == Applied(NotAcceptable, state, [])
    ensures r.status != NoError ==> r.state == state && r.events == []
    // an accepted value succeeds exactly on a registered sensor, and gives 4.04 otherwise
    ensures CheckResourceValue(HandleObjectId(h), v) == NoError ==>
              (r.status == NoError <==> HandleObjectId(h) in state && HandleInstanceId(h) in state[HandleObjectId(h)].instances)
    ensures CheckResourceValue(HandleObjectId(h), v) == NoError &&
            !(HandleObjectId(h) in state && HandleInstanceId(h) in state[HandleObjectId(h)].instances) ==>
              r == Applied(NotFound, state, [])
    ensures r.status == NoError ==>
              var t, id := HandleObjectId(h), HandleInstanceId(h);
              // the notifications are those of the value rule for one new value
              && r.events == UpdateResourceValues(state[t].instances[id], [v], t, id).events
              && t in state && id in state[t].instances
              && r.state.Keys == state.Keys
              && r.state[t].instances.Keys == state[t].instances.Keys
              && r.state[t].instances[id].value == v
              // nothing else changes but the instance's measured bounds
              && (forall o :: o in state && o != t ==> r.state[o] == state[o])
              && r.state[t].desc == state[t].desc
              && (forall j :: j in state[t].instances && j != id ==> r.state[t].instances[j] == state[t].instances[j])
              && var a := r.state[t].instances[id];
                 a == state[t].instances[id].(value := v, min := a.min, max := a.max)
  {
    var t, id := HandleObjectId(h), HandleInstanceId(h);
    var check := CheckResourceValue(t, v);
    if check != NoError then Applied(check, state, [])
    else if t !in state || id !in state[t].instances then Applied(NotFound, state, [])
    else
      var obj := state[t];
      var u := UpdateResourceValues(obj.instances[id], [v], t, id);
      Applied(NoError, state[t := obj.(instances := obj.instances[id := u.inst.(value := v)])], u.events)
  }

  /** An update on a range sensor keeps min <= max and only ever widens the bounds. */
  lemma UpdateValueRange(state: IpsoState, h: uint32, v: real)
    requires UpdateValue(state, h, v).status == NoError
    requires RSC_DIGITAL_INPUT_STATE !in state[HandleObjectId(h)].instances[HandleInstanceId(h)].resources
    ensures var t, id := HandleObjectId(h), HandleInstanceId(h);
            var before := state[t].instances[id];
            var after := UpdateValue(state, h, v).state[t].instances[id];
            && after.min <= before.min && after.max >= before.max
            && (before.min <= before.max ==> after.min <= after.max)
  {
  }

  lemma UpdateValueKeepsValid(state: IpsoState, h: uint32, v: real)
    requires Valid(state)
    ensures Valid(UpdateValue(state, h, v).state)
  {
    var r := UpdateValue(state, h, v);
    if r.status == NoError {
      var t, id := HandleObjectId(h), HandleInstanceId(h);
      var u := UpdateResourceValues(state[t].instances[id], [v], t, id);
      assert u.inst.resources == state[t].instances[id].resources by {
        var inst := state[t].instances[id];
        if RSC_DIGITAL_INPUT_STATE in inst.resources {
          DigitalUpdateCounts(RSC_DIGITAL_INPUT_COUNTER in inst.resources, inst, inst.value, [v], t, id);
        }
      }
    }
  }
}

=== FILE: lwm2m_data.dfy ===
/**
  The value model shared by the codecs and the object adapters: status codes,
  the typed value entry exchanged with the object tree, and the wire buffer a
  serializer produces.
 */
module Lwm2mData {

  type byte = x: int | 0 <= x < 0x100
  type uint16 = x: int | 0 <= x < 0x1_0000

  /** The "all" / "none" sentinel of a 16-bit identifier. */
  const ID_ALL: uint16 := 0xFFFF

  const INT32_MAX: int := 0x7FFF_FFFF
  const UINT32_MAX: int := 0xFFFF_FFFF
  const INT64_MIN: int := -0x8000_0000_0000_0000
  const INT64_MAX: int := 0x7FFF_FFFF_FFFF_FFFF

  /** The CoAP-style response codes returned by this layer. `RegistryRefused`
      stands for whatever failure status the object registry returns: the
      registry is outside this model and so is the exact code. */
  datatype Status =
    | NoError
    | BadRequest        // 4.00
    | BadOption         // 4.02
    | NotFound          // 4.04
    | MethodNotAllowed  // 4.05
    | NotAcceptable     // 4.06
    | InternalError     // 5.00
    | RegistryRefused

  type uint32 = x: int | 0 <= x < 0x1_0000_0000

  /** The operations the dispatch router hands to an object's data callback. */
  datatype Operation = Read | Write | Execute | Free | Create | Delete

  /** The type tag of a value entry. */
  datatype DataType =
    | Undefined
    | String
    | Opaque
    | Integer
    | Float
    | Boolean
    | ObjectLink
    | Time
    | UnsignedInteger
    | CoreLink

  datatype ObjLink = ObjLink(objectId: uint16, instanceId: uint16)

  /** The value of an entry. The source keeps it in a C union; each operation
      reads and writes only the member selected by the entry's type tag (or by
      the resource it addresses), so the union is modelled as a record holding
      every member. */
  datatype Value = Value(
    asBuffer: seq<byte>,
    asInteger: int,
    asFloat: real,
    asBoolean: bool,
    asObjLink: ObjLink)

  /** The zero-filled value of a freshly cleared entry. */
  const ZeroValue: Value := Value([], 0, 0.0, false, ObjLink(0, 0))

  /** An object / instance / resource / resource-instance address. */
  datatype Uri = Uri(objectId: uint16, instanceId: uint16, resourceId: uint16, resInstanceId: uint16)

  /** One addressed, typed value entry. */
  datatype Data = Data(
    objectId: uint16,
    instanceId: uint16,
    resourceId: uint16,
    resInstanceId: uint16,
    typ: DataType,
    value: Value)

  /** A buffer handed out by a serializer: either the null pointer or an
      allocation holding the given bytes. */
  datatype Wire = Null | Buffer(bytes: seq<byte>) {
    function Length(): nat {
      match this
      case Null => 0
      case Buffer(b) => |b|
    }
  }

  datatype Option<+T> = None | Some(value: T)

  /** The status of an operation together with the value it produced on success. */
  datatype Outcome<T> = Ok(value: T) | Err(status: Status)
}

=== FILE: server_object.dfy ===
/**
  The LwM2M Server object (Object ID 1) adapter: its instances are the
  client's server sessions, and Read / Write / Execute act directly on the
  session records. The effects on the registration machinery (setting-changed
  notifications and registration-update requests) are returned as an event
  sequence.

  The resource IDs are those of the Server object in the OMA LwM2M 1.0
  Technical Specification (appendix E.2).
 */
module ServerObject {
  import opened Lwm2mData

  const RSC_SHORT_ID: uint16 := 0
  const RSC_LIFETIME: uint16 := 1
  const RSC_MIN_PERIOD: uint16 := 2
  const RSC_MAX_PERIOD: uint16 := 3
  const RSC_DISABLE: uint16 := 4
  const RSC_TIMEOUT: uint16 := 5
  const RSC_STORING: uint16 := 6
  const RSC_BINDING: uint16 := 7
  const RSC_UPDATE: uint16 := 8

  /** Server settings named in setting-changed notifications. */
  const SETTING_LIFETIME: nat := 2
  const SETTING_NOTIF_STORING: nat := 4
  const SETTING_DISABLE_TIMEOUT: nat := 5
  const SETTING_DEFAULT_MIN_PERIOD: nat := 6
  const SETTING_DEFAULT_MAX_PERIOD: nat := 7

  /** Where a session stands in registration; only the three states that
      forbid Disable are told apart. */
  datatype ConnState = Disconnected | RegRegistering | RegFailed | OtherState(code: nat)

  datatype ServerFlag = DisableFlag | OtherFlag(bit: nat)

  /** The reason attached to a registration-update request. */
  datatype UpdateFlag = FlagNone | FlagLifetime

  /** One server session, identified by the Server object instance it backs. */
  datatype Server = Server(
    srvObjInstId: uint16,
    shortId: uint16,
    lifetime: int,
    defaultPmin: int,
    defaultPmax: int,
    disableTimeout: int,
    notifStoring: bool,
    binding: nat,
    status: ConnState,
    flags: set<ServerFlag>)

  datatype Event =
    | SettingChanged(server: uint16, setting: nat)
    | RegistrationUpdate(server: uint16, flag: UpdateFlag)

  /** The first session backing Server object instance `id`. */
  function Find(servers: seq<Server>, id: uint16): (r: Option<nat>)
    ensures r.Some? ==> r.value < |servers| && servers[r.value].srvObjInstId == id
    ensures r.Some? ==> forall j :: 0 <= j < r.value ==> servers[j].srvObjInstId != id
    ensures r.None? ==> forall j :: 0 <= j < |servers| ==> servers[j].srvObjInstId != id
    decreases |servers|
  {
    if |servers| == 0 then None
    else if servers[0].srvObjInstId == id then Some(0)
    else match Find(servers[1..], id)
      case None => None
      case Some(k) => Some(k + 1)
  }

  /** Two session lists that back the same instances, in the same order. */
  predicate SameIds(a: seq<Server>, b: seq<Server>)
  {
    |a| == |b| && forall k :: 0 <= k < |a| ==> a[k].srvObjInstId == b[k].srvObjInstId
  }

  lemma {:induction false} FindSameIds(a: seq<Server>, b: seq<Server>, id: uint16)
    requires SameIds(a, b)
    ensures Find(a, id) == Find(b, id)
    decreases |a|
  {
    if |a| > 0 {
      assert SameIds(a[1..], b[1..]) by {
        forall k | 0 <= k < |a| - 1
          ensures a[1..][k].srvObjInstId == b[1..][k].srvObjInstId
        {
          assert a[k + 1].srvObjInstId == b[k + 1].srvObjInstId;
        }
      }
      FindSameIds(a[1..], b[1..], id);
    }
  }

  /** Every entry addresses an existing session. */
  predicate AllFound(data: seq<Data>, servers: seq<Server>)
  {
    forall k :: 0 <= k < |data| ==> Find(servers, data[k].instanceId).Some?
  }

  // ---------------------------------------------------------------------
  // Read

  /** The value of one entry read from a session. The binding text's
      formatter is not part of this model: `bindingText` stands for it. */
  function ReadEntry(d: Data, s: Server, bindingText: nat -> seq<byte>): (r: Data)
    ensures r == d.(value := r.value)
    ensures d.resourceId == RSC_SHORT_ID ==> r.value == d.value.(asInteger := s.shortId)
    ensures d.resourceId == RSC_LIFETIME ==> r.value == d.value.(asInteger := s.lifetime)
    ensures d.resourceId == RSC_MIN_PERIOD ==> r.value == d.value.(asInteger := s.defaultPmin)
    ensures d.resourceId == RSC_MAX_PERIOD ==> r.value == d.value.(asInteger := s.defaultPmax)
    ensures d.resourceId == RSC_TIMEOUT ==> r.value == d.value.(asInteger := s.disableTimeout)
    ensures d.resourceId == RSC_STORING ==> r.value == d.value.(asBoolean := s.notifStoring)
    ensures d.resourceId == RSC_BINDING ==> r.value == d.value.(asBuffer := bindingText(s.binding))
  {
    var v := d.value;
    if d.resourceId == RSC_SHORT_ID then d.(value := v.(asInteger := s.shortId))
    else if d.resourceId == RSC_LIFETIME then d.(value := v.(asInteger := s.lifetime))
    else if d.resourceId == RSC_MIN_PERIOD then d.(value := v.(asInteger := s.defaultPmin))
    else if d.resourceId == RSC_MAX_PERIOD then d.(value := v.(asInteger := s.defaultPmax))
    else if d.resourceId == RSC_TIMEOUT then d.(value := v.(asInteger := s.disableTimeout))
    else if d.resourceId == RSC_STORING then d.(value := v.(asBoolean := s.notifStoring))
    else if d.resourceId == RSC_BINDING then d.(value := v.(asBuffer := bindingText(s.binding)))
    else d
  }

  datatype Reading = Reading(status: Status, data: seq<Data>)

  /** Reads entries in order; an entry for an unknown instance aborts with 4.04. */
  function ReadEntries(data: seq<Data>, servers: seq<Server>, bindingText: nat -> seq<byte>): (r: Reading)
    ensures |r.data| == |data|
    ensures r.status == NoError || r.status == NotFound
    ensures r.status == NoError <==> AllFound(data, servers)
    ensures r.status == NoError ==>
              forall k :: 0 <= k < |data| ==>
                r.data[k] == ReadEntry(data[k], servers[Find(servers, data[k].instanceId).value], bindingText)
    decreases |data|
  {
    if |data| == 0 then Reading(NoError, [])
    else match Find(servers, data[0].instanceId)
      case None => Reading(NotFound, data)
      case Some(k) =>
        var rest := ReadEntries(data[1..], servers, bindingText);
        assert forall j :: 0 < j < |data| ==> data[j] == data[1..][j - 1];
        Reading(rest.status, [ReadEntry(data[0], servers[k], bindingText)] + rest.data)
  }

  // ---------------------------------------------------------------------
  // Write

  /** A single change to one session, with its status and notifications. */
  datatype Step = Step(status: Status, server: Server, events: seq<Event>)

  /** The values each writable resource accepts; Binding is read-only. */
  predicate WritableValue(d: Data)
  {
    var v := d.value.asInteger;
    if d.resourceId == RSC_LIFETIME then 0 <= v <= INT32_MAX
    else if d.resourceId == RSC_MIN_PERIOD || d.resourceId == RSC_MAX_PERIOD then 0 <= v <= UINT32_MAX
    else if d.resourceId == RSC_TIMEOUT then 0 <= v <= INT32_MAX
    else d.resourceId != RSC_BINDING
  }

  /** Writes one entry to a session. */
  function WriteEntry(d: Data, s: Server): (r: Step)
    ensures r.status == NoError <==> WritableValue(d)
    ensures r.status != NoError ==> r == Step(BadRequest, s, [])
    // only the written resource's field changes
    ensures r.server == s.(lifetime := r.server.lifetime, defaultPmin := r.server.defaultPmin,
                           defaultPmax := r.server.defaultPmax, disableTimeout := r.server.disableTimeout,
                           notifStoring := r.server.notifStoring)
    // Short Server ID, Disable, Update and unknown resources are ignored
    ensures d.resourceId !in {RSC_LIFETIME, RSC_MIN_PERIOD, RSC_MAX_PERIOD, RSC_TIMEOUT, RSC_STORING, RSC_BINDING} ==>
              r == Step(NoError, s, [])
    ensures d.resourceId == RSC_LIFETIME && r.status == NoError ==>
              r.server == s.(lifetime := d.value.asInteger) &&
              (s.lifetime == d.value.asInteger ==> r.events == []) &&
              (s.lifetime != d.value.asInteger ==>
                 r.events == [SettingChanged(s.srvObjInstId, SETTING_LIFETIME),
                              RegistrationUpdate(s.srvObjInstId, FlagLifetime)])
    ensures d.resourceId == RSC_MIN_PERIOD && r.status == NoError ==>
              r.server == s.(defaultPmin := d.value.asInteger) &&
              r.events == [SettingChanged(s.srvObjInstId, SETTING_DEFAULT_MIN_PERIOD)]
    ensures d.resourceId == RSC_MAX_PERIOD && r.status == NoError ==>
              r.server == s.(defaultPmax := d.value.asInteger) &&
              r.events == [SettingChanged(s.srvObjInstId, SETTING_DEFAULT_MAX_PERIOD)]
    ensures d.resourceId == RSC_TIMEOUT && r.status == NoError ==>
              r.server == s.(disableTimeout := d.value.asInteger) &&
              r.events == [SettingChanged(s.srvObjInstId, SETTING_DISABLE_TIMEOUT)]
    ensures d.resourceId == RSC_STORING ==>
              r.status == NoError &&
              r.server == s.(notifStoring := d.value.asBoolean) &&
              r.events == [SettingChanged(s.srvObjInstId, SETTING_NOTIF_STORING)]
  {
    var v := d.value.asInteger;
    var id := s.srvObjInstId;
    if d.resourceId == RSC_LIFETIME then
      if v < 0 || v > INT32_MAX then Step(BadRequest, s, [])
      else if s.lifetime != v then
        Step(NoError, s.(lifetime := v), [SettingChanged(id, SETTING_LIFETIME), RegistrationUpdate(id, FlagLifetime)])
      else Step(NoError, s, [])
    else if d.resourceId == RSC_MIN_PERIOD then
      if v < 0 || v > UINT32_MAX then Step(BadRequest, s, [])
      else Step(NoError, s.(defaultPmin := v), [SettingChanged(id, SETTING_DEFAULT_MIN_PERIOD)])
    else if d.resourceId == RSC_MAX_PERIOD then
      if v < 0 || v > UINT32_MAX then Step(BadRequest, s, [])
      else Step(NoError, s.(defaultPmax := v), [SettingChanged(id, SETTING_DEFAULT_MAX_PERIOD)])
    else if d.resourceId == RSC_TIMEOUT then
      if v < 0 || v > INT32_MAX then Step(BadRequest, s, [])
      else Step(NoError, s.(disableTimeout := v), [SettingChanged(id, SETTING_DISABLE_TIMEOUT)])
    else if d.resourceId == RSC_STORING then
      Step(NoError, s.(notifStoring := d.value.asBoolean), [SettingChanged(id, SETTING_NOTIF_STORING)])
    else if d.resourceId == RSC_BINDING then Step(BadRequest, s, [])
    else Step(NoError, s, [])
  }

  /** The status, sessions and notifications a Write or Execute ends with. */
  datatype Applied = Applied(status: Status, servers: seq<Server>, events: seq<Event>)

  /** Every numeric setting of a session lies in its field's range. */
  predicate InRange(s: Server)
  {
    && 0 <= s.lifetime <= INT32_MAX
    && 0 <= s.defaultPmin <= UINT32_MAX
    && 0 <= s.defaultPmax <= UINT32_MAX
    && 0 <= s.disableTimeout <= INT32_MAX
  }

  predicate AllInRange(servers: seq<Server>)
  {
    forall k :: 0 <= k < |servers| ==> InRange(servers[k])
  }

  /** Writes entries in order and stops at the first failure. An unknown
      instance aborts with 4.04, keeping what earlier entries changed. */
  function WriteEntries(data: seq<Data>, servers: seq<Server>): (r: Applied)
    ensures SameIds(r.servers, servers)
    ensures r.status == NoError || r.status == BadRequest || r.status == NotFound
    decreases |data|
  {
    if |data| == 0 then Applied(NoError, servers, [])
    else match Find(servers, data[0].instanceId)
      case None => Applied(NotFound, servers, [])
      case Some(k) =>
        var step := WriteEntry(data[0], servers[k]);
        if step.status != NoError then Applied(step.status, servers, [])
        else
          var updated := servers[k := step.server];
          assert SameIds(updated, servers);
          var rest := WriteEntries(data[1..], updated);
          Applied(rest.status, rest.servers, step.events + rest.events)
  }

  /** A Write succeeds exactly when every entry addresses an existing session
      and carries a value its resource accepts. */
  lemma {:induction false} WriteSucceeds(data: seq<Data>, servers: seq<Server>)
    ensures WriteEntries(data, servers).status == NoError <==>
            AllFound(data, servers) && forall k :: 0 <= k < |data| ==> WritableValue(data[k])
    decreases |data|
  {
    if |data| > 0 {
      var f := Find(servers, data[0].instanceId);
      if f.Some? {
        var step := WriteEntry(data[0], servers[f.value]);
        if step.status == NoError {
          var updated := servers[f.value := step.server];
          assert SameIds(updated, servers);
          WriteSucceeds(data[1..], updated);
          forall j | 0 <= j < |data[1..]|
            ensures Find(updated, data[1..][j].instanceId) == Find(servers, data[j + 1].instanceId)
          {
            FindSameIds(updated, servers, data[j + 1].instanceId);
          }
          assert forall j :: 0 < j < |data| ==> data[j] == data[1..][j - 1];
        }
      }
    }
  }

  /** Because every value is checked before it is stored, a Write never takes
      a setting out of its field's range. */
  lemma {:induction false} WriteKeepsInRange(data: seq<Data>, servers: seq<Server>)
    requires AllInRange(servers)
    ensures AllInRange(WriteEntries(data, servers).servers)
    decreases |data|
  {
    if |data| > 0 {
      var f := Find(servers, data[0].instanceId);
      if f.Some? {
        var step := WriteEntry(data[0], servers[f.value]);
        if step.status == NoError {
          assert InRange(step.server);
          WriteKeepsInRange(data[1..], servers[f.value := step.server]);
        }
      }
    }
  }

  /** Entries after a failed one are never applied. */
  lemma {:induction false} WriteStopsAtFailure(data: seq<Data>, more: seq<Data>, servers: seq<Server>)
    requires WriteEntries(data, servers).status != NoError
    ensures WriteEntries(data + more, servers) == WriteEntries(data, servers)
    decreases |data|
  {
    assert |data| > 0;
    assert (data + more)[0] == data[0];
    assert (data + more)[1..] == data[1..] + more;
    var f := Find(servers, data[0].instanceId);
    if f.Some? {
      var step := WriteEntry(data[0], servers[f.value]);
      if step.status == NoError {
        WriteStopsAtFailure(data[1..], more, servers[f.value := step.server]);
      }
    }
  }

  /** Writing the lifetime of an existing session: an out-of-range value is
      refused and changes nothing; the current value changes nothing and
      notifies no one; a new value is stored, notified once and triggers one
      registration update. */
  lemma WriteLifetime(d: Data, servers: seq<Server>)
    requires d.resourceId == RSC_LIFETIME && Find(servers, d.instanceId).Some?
    ensures var r := WriteEntries([d], servers);
            var k := Find(servers, d.instanceId).value;
            var s := servers[k];
            var v := d.value.asInteger;
            && (!(0 <= v <= INT32_MAX) ==> r == Applied(BadRequest, servers, []))
            && (0 <= v <= INT32_MAX && v == s.lifetime ==> r == Applied(NoError, servers, []))
            && (0 <= v <= INT32_MAX && v != s.lifetime ==>
                  r == Applied(NoError, servers[k := s.(lifetime := v)],
                               [SettingChanged(s.srvObjInstId, SETTING_LIFETIME),
                                RegistrationUpdate(s.srvObjInstId, FlagLifetime)]))
  {
    var k := Find(servers, d.instanceId).value;
    var step := WriteEntry(d, servers[k]);
    assert [d][1..] == [];
    assert WriteEntries([], servers[k := step.server]) == Applied(NoError, servers[k := step.server], []);
    assert step.events + [] == step.events;
    if step.server == servers[k] {
      assert servers[k := step.server] == servers;
    }
  }

  /** What a successful Write stores is what a later Read returns. */
  lemma WriteThenRead(d: Data, q: Data, servers: seq<Server>, bindingText: nat -> seq<byte>)
    requires d.resourceId == RSC_LIFETIME || d.resourceId == RSC_STORING
    requires q.resourceId == d.resourceId && q.instanceId == d.instanceId
    requires WriteEntries([d], servers).status == NoError
    ensures var after := WriteEntries([d], servers).servers;
            var r := ReadEntries([q], after, bindingText);
            && r.status == NoError
            && (d.resourceId == RSC_LIFETIME ==> r.data[0].value.asInteger == d.value.asInteger)
            && (d.resourceId == RSC_STORING ==> r.data[0].value.asBoolean == d.value.asBoolean)
  {
    var k := Find(servers, d.instanceId).value;
    var step := WriteEntry(d, servers[k]);
    var updated := servers[k := step.server];
    assert [d][1..] == [];
    assert WriteEntries([d], servers).servers == updated;
    FindSameIds(updated, servers, d.instanceId);
    assert AllFound([q], updated);
  }

  // ---------------------------------------------------------------------
  // Execute

  /** Disable is refused until the session is past its first registration. */
  predicate CanDisable(status: ConnState)
  {
    !(status == Disconnected || status == RegRegistering || status == RegFailed)
  }

  /** Executes one argument-free entry on a session. */
  function ExecuteEntry(d: Data, s: Server): (r: Step)
    ensures r.status == NoError || r.status == BadRequest
    ensures r.status == BadRequest <==> d.resourceId == RSC_DISABLE && !CanDisable(s.status)
    ensures r.status != NoError ==> r == Step(BadRequest, s, [])
    ensures d.resourceId == RSC_DISABLE && r.status == NoError ==>
              r.server == s.(flags := s.flags + {DisableFlag}) && r.events == []
    ensures d.resourceId == RSC_UPDATE ==>
              r == Step(NoError, s, [RegistrationUpdate(s.srvObjInstId, FlagNone)])
    ensures d.resourceId != RSC_DISABLE && d.resourceId != RSC_UPDATE ==> r == Step(NoError, s, [])
  {
    if d.resourceId == RSC_UPDATE then Step(NoError, s, [RegistrationUpdate(s.srvObjInstId, FlagNone)])
    else if d.resourceId == RSC_DISABLE then
      if !CanDisable(s.status) then Step(BadRequest, s, [])
      else Step(NoError, s.(flags := s.flags + {DisableFlag}), [])
    else Step(NoError, s, [])
  }

  /** `after` differs from `before` at most by the Disable flag. */
  predicate OnlyDisableAdded(before: Server, after: Server)
  {
    after == before.(flags := after.flags) && (after.flags == before.flags || after.flags == before.flags + {DisableFlag})
  }

  /** Executes entries in order and stops at the first failure; an argument is
      refused before the instance is looked up. */
  function ExecuteEntries(data: seq<Data>, servers: seq<Server>): (r: Applied)
    ensures SameIds(r.servers, servers)
    ensures r.status == NoError || r.status == BadRequest || r.status == NotFound
    // Execute touches nothing but the Disable flag
    ensures forall k :: 0 <= k < |servers| ==> OnlyDisableAdded(servers[k], r.servers[k])
    decreases |data|
  {
    if |data| == 0 then Applied(NoError, servers, [])
    else if data[0].typ != Undefined then Applied(BadRequest, servers, [])
    else match Find(servers, data[0].instanceId)
      case None => Applied(NotFound, servers, [])
      case Some(k) =>
        var step := ExecuteEntry(data[0], servers[k]);
        if step.status != NoError then Applied(step.status, servers, [])
        else
          var updated := servers[k := step.server];
          assert SameIds(updated, servers);
          var rest := ExecuteEntries(data[1..], updated);
          assert forall j :: 0 <= j < |servers| ==> OnlyDisableAdded(servers[j], updated[j]);
          Applied(rest.status, rest.servers, step.events + rest.events)
  }

  /** An entry carrying an argument is refused with 4.00 and changes nothing. */
  lemma ExecuteWithArgument(d: Data, more: seq<Data>, servers: seq<Server>)
    requires d.typ != Undefined
    ensures ExecuteEntries([d] + more, servers) == Applied(BadRequest, servers, [])
  {
    assert ([d] + more)[0] == d;
  }

  /** Disable on a session not yet registered is refused and changes nothing;
      otherwise it only raises the Disable flag. */
  lemma ExecuteDisable(d: Data, servers: seq<Server>)
    requires d.typ == Undefined && d.resourceId == RSC_DISABLE && Find(servers, d.instanceId).Some?
    ensures var r := ExecuteEntries([d], servers);
            var k := Find(servers, d.instanceId).value;
            var s := servers[k];
            && (!CanDisable(s.status) ==> r == Applied(BadRequest, servers, []))
            && (CanDisable(s.status) ==> r == Applied(NoError, servers[k := s.(flags := s.flags + {DisableFlag})], []))
  {
    var k := Find(servers, d.instanceId).value;
    var step := ExecuteEntry(d, servers[k]);
    assert [d][1..] == [];
    assert ExecuteEntries([], servers[k := step.server]) == Applied(NoError, servers[k := step.server], []);
  }

  /** Execute and Write answer 4.04 for an entry naming no session. */
  lemma UnknownInstance(d: Data, more: seq<Data>, servers: seq<Server>, bindingText: nat -> seq<byte>)
    requires Find(servers, d.instanceId).None?
    ensures ReadEntries([d] + more, servers, bindingText).status == NotFound
    ensures WriteEntries([d] + more, servers) == Applied(NotFound, servers, [])
    ensures d.typ == Undefined ==> ExecuteEntries([d] + more, servers) == Applied(NotFound, servers, [])
  {
    assert ([d] + more)[0] == d;
    assert !AllFound([d] + more, servers);
  }

  // ---------------------------------------------------------------------
  // Dispatch and registry calls

  datatype Response = Response(status: Status, data: seq<Data>, servers: seq<Server>, events: seq<Event>)

  /** The data callback of the Server object. */
  function ServerObjectCallback(op: Operation, data: seq<Data>, servers: seq<Server>,
                                bindingText: nat -> seq<byte>): (r: Response)
    ensures SameIds(r.servers, servers)
    ensures op == Read ==> r.servers == servers && r.events == [] && |r.data| == |data|
    ensures op == Free ==> r == Response(NoError, data, servers, [])
    ensures op == Write || op == Execute ==> r.data == data
  {
    match op
    case Read =>
      var rd := ReadEntries(data, servers, bindingText);
      Response(rd.status, rd.data, servers, [])
    case Write =>
      var w := WriteEntries(data, servers);
      Response(w.status, data, w.servers, w.events)
    case Execute =>
      var x := ExecuteEntries(data, servers);
      Response(x.status, data, x.servers, x.events)
    case Free => Response(NoError, data, servers, [])
    case Create => Response(NoError, data, servers, [])
    case Delete => Response(NoError, data, servers, [])
  }

  /** No resource of the Server object has resource instances. */
  function ResInstances(objectId: uint16, instanceId: uint16, resourceId: uint16): (r: (Status, seq<uint16>))
    ensures r.0 == NoError && |r.1| == 0
  {
    (NoError, [])
  }

  /** Adds instance `id` to the Server object in the data-model registry. The
      registry refuses an id it already holds. */
  function ServerCreate(instances: set<uint16>, id: uint16): (r: Outcome<set<uint16>>)
    requires id != ID_ALL
    ensures r.Ok? <==> id !in instances
    ensures r.Ok? ==> r.value == instances + {id}
    ensures r.Err? ==> r.status == RegistryRefused
  {
    if id in instances then Err(RegistryRefused) else Ok(instances + {id})
  }

  /** Removes instance `id` of the Server object from the registry, which
      refuses an id it does not hold. */
  function ServerRemove(instances: set<uint16>, id: uint16): (r: Outcome<set<uint16>>)
    ensures r.Ok? <==> id in instances
    ensures r.Ok? ==> r.value == instances - {id}
    ensures r.Err? ==> r.status == RegistryRefused
  {
    if id !in instances then Err(RegistryRefused) else Ok(instances - {id})
  }

  /** Removing an instance just created restores the registry. */
  lemma RemoveUndoesCreate(instances: set<uint16>, id: uint16)
    requires id != ID_ALL && id !in instances
    ensures ServerRemove(ServerCreate(instances, id).value, id) == Ok(instances)
  {
    assert instances + {id} - {id} == instances;
  }
}

=== FILE: text_opaque.dfy ===
/**
  The Plain Text and Opaque content formats (sections 6.4.1 and 6.4.2 of the
  OMA LwM2M 1.0 Technical Specification): one resource value per message, the
  whole buffer being that value.
 */
module TextOpaque {
  import opened Lwm2mData
  import Base64
  import Decimal

  /** Size of the scratch buffer integers are formatted into; floats get twice it. */
  const PRV_STR_LENGTH: nat := 32
  /** Longest object-link text, "65535:65535". */
  const PRV_OBJECT_LINK_TEXT_MAX_LEN: nat := 11

  const CHAR_ONE: byte := 49   // '1'
  const CHAR_ZERO: byte := 48  // '0'

  /** A fresh allocation holding a copy of `b`, or the null buffer when `b` is empty. */
  function CopyBuffer(b: seq<byte>): (w: Wire)
    ensures w.Length() == |b|
    ensures w.Null? <==> |b| == 0
    ensures w.Buffer? ==> w.bytes == b
  {
    if |b| == 0 then Null else Buffer(b)
  }

  /** A formatted text moved out of a scratch buffer of `capacity` bytes; the
      formatter reports an empty text, and so a failure, when it does not fit. */
  function FromScratch(text: seq<byte>, capacity: nat): (r: Outcome<Wire>)
    ensures r.Ok? <==> 0 < |text| <= capacity
    ensures r.Ok? ==> r.value == Buffer(text)
    ensures r.Err? ==> r.status == InternalError
  {
    if |text| == 0 || |text| > capacity then Err(InternalError) else Ok(Buffer(text))
  }

  /** Serializes one entry in the Plain Text format. Float formatting is not
      part of this model: `floatText` stands for it. */
  function TextSerialize(d: Data, floatText: real -> seq<byte>): (r: Outcome<Wire>)
    ensures r.Ok? && r.value.Buffer? ==> |r.value.bytes| > 0
    ensures r.Err? ==> r.status == BadRequest || r.status == InternalError
    ensures r == Err(BadRequest) <==> d.typ == Undefined
    // strings and core links are copied verbatim, the empty one as the null buffer
    ensures (d.typ == String || d.typ == CoreLink) ==>
              r.Ok? && r.value.Length() == |d.value.asBuffer| &&
              (r.value.Null? <==> |d.value.asBuffer| == 0) &&
              (r.value.Buffer? ==> r.value.bytes == d.value.asBuffer)
    ensures d.typ == Opaque && |d.value.asBuffer| == 0 ==> r == Ok(Null)
    ensures d.typ == UnsignedInteger && d.value.asInteger < 0 ==> r == Err(InternalError)
    // a boolean is the single character '1' or '0'
    ensures d.typ == Boolean ==>
              r.Ok? && r.value.Length() == 1 &&
              (r.value.bytes[0] == CHAR_ONE <==> d.value.asBoolean) &&
              (r.value.bytes[0] == CHAR_ZERO <==> !d.value.asBoolean)
  {
    var v := d.value;
    match d.typ
    case String => Ok(CopyBuffer(v.asBuffer))
    case CoreLink => Ok(CopyBuffer(v.asBuffer))
    case Opaque =>
      if |v.asBuffer| == 0 then Ok(Null)
      else
        var encoded := Base64.Encode(v.asBuffer);
        if |encoded| == 0 then Err(InternalError) else Ok(Buffer(encoded))
    case UnsignedInteger =>
      if v.asInteger < 0 then Err(InternalError)
      else FromScratch(Decimal.IntText(v.asInteger), PRV_STR_LENGTH)
    case Integer => FromScratch(Decimal.IntText(v.asInteger), PRV_STR_LENGTH)
    case Time => FromScratch(Decimal.IntText(v.asInteger), PRV_STR_LENGTH)
    case Float => FromScratch(floatText(v.asFloat), PRV_STR_LENGTH * 2)
    case Boolean => Ok(Buffer([if v.asBoolean then CHAR_ONE else CHAR_ZERO]))
    case ObjectLink => FromScratch(Decimal.ObjLinkText(v.asObjLink), PRV_OBJECT_LINK_TEXT_MAX_LEN)
    case Undefined => Err(BadRequest)
  }

  /** The status of a deserialization and the entries it produced (their count
      is the length of the sequence). */
  datatype Decoded = Decoded(status: Status, entries: seq<Data>)

  /** Builds the single entry a text or opaque payload decodes to. */
  function CommonDeserialize(baseUri: Option<Uri>, buffer: seq<byte>): (r: Decoded)
    ensures r.status == NotAcceptable <==> baseUri.None? || baseUri.value.resourceId == ID_ALL
    ensures r.status != NoError ==> r.status == NotAcceptable && r.entries == []
    ensures r.status == NoError ==>
              |r.entries| == 1 &&
              r.entries[0].objectId == baseUri.value.objectId &&
              r.entries[0].instanceId == baseUri.value.instanceId &&
              r.entries[0].resourceId == baseUri.value.resourceId &&
              r.entries[0].resInstanceId == baseUri.value.resInstanceId &&
              r.entries[0].value == ZeroValue.(asBuffer := buffer)
  {
    if baseUri.None? then Decoded(NotAcceptable, [])
    else if baseUri.value.resourceId == ID_ALL then Decoded(NotAcceptable, [])
    else
      var u := baseUri.value;
      // the entry is zero-filled, then given a copy of a non-empty payload
      var value := if |buffer| != 0 then ZeroValue.(asBuffer := buffer) else ZeroValue;
      Decoded(NoError, [Data(u.objectId, u.instanceId, u.resourceId, u.resInstanceId, Undefined, value)])
  }

  function WithType(r: Decoded, t: DataType): Decoded
    requires r.status == NoError ==> |r.entries| == 1
  {
    if r.status == NoError then r.(entries := [r.entries[0].(typ := t)]) else r
  }

  /** Plain Text payloads always decode to a string entry. */
  function TextDeserialize(baseUri: Option<Uri>, buffer: seq<byte>): (r: Decoded)
    ensures r.status == NotAcceptable <==> baseUri.None? || baseUri.value.resourceId == ID_ALL
    ensures r.status != NoError ==> r.status == NotAcceptable && r.entries == []
    ensures r.status == NoError ==>
              && |r.entries| == 1 && r.entries[0].typ == String
              && r.entries[0].objectId == baseUri.value.objectId
              && r.entries[0].instanceId == baseUri.value.instanceId
              && r.entries[0].resourceId == baseUri.value.resourceId
              && r.entries[0].resInstanceId == baseUri.value.resInstanceId
              && r.entries[0].value.asBuffer == buffer
  {
    WithType(CommonDeserialize(baseUri, buffer), String)
  }

  /** Opaque payloads always decode to an opaque entry. */
  function OpaqueDeserialize(baseUri: Option<Uri>, buffer: seq<byte>): (r: Decoded)
    ensures r.status == NotAcceptable <==> baseUri.None? || baseUri.value.resourceId == ID_ALL
    ensures r.status != NoError ==> r.status == NotAcceptable && r.entries == []
    ensures r.status == NoError ==>
              && |r.entries| == 1 && r.entries[0].typ == Opaque
              && r.entries[0].objectId == baseUri.value.objectId
              && r.entries[0].instanceId == baseUri.value.instanceId
              && r.entries[0].resourceId == baseUri.value.resourceId
              && r.entries[0].resInstanceId == baseUri.value.resInstanceId
              && r.entries[0].value.asBuffer == buffer
  {
    WithType(CommonDeserialize(baseUri, buffer), Opaque)
  }

  /** Serializes one entry in the Opaque format: the raw bytes, no Base64. */
  function OpaqueSerialize(d: Data): (r: Outcome<Wire>)
    ensures r.Err? <==> d.typ != Undefined && d.typ != Opaque
    ensures r.Err? ==> r.status == NotAcceptable
    ensures r.Ok? ==> r.value.Length() == |d.value.asBuffer|
    ensures r.Ok? && r.value.Buffer? ==> r.value.bytes == d.value.asBuffer
  {
    if d.typ != Undefined && d.typ != Opaque then Err(NotAcceptable)
    else Ok(CopyBuffer(d.value.asBuffer))
  }

  /** A non-empty opaque value is written in the text format as its Base64
      encoding, which decodes back to the value; the encoder never reports the
      empty result that would make the serializer fail. */
  lemma TextSerializeOpaqueIsBase64(d: Data, floatText: real -> seq<byte>)
    requires d.typ == Opaque && |d.value.asBuffer| > 0
    ensures var r := TextSerialize(d, floatText);
            && r.Ok? && r.value.Buffer?
            && |r.value.bytes| == Base64.EncodedSize(|d.value.asBuffer|)
            && Base64.Decode(r.value.bytes) == Some(d.value.asBuffer)
  {
    Base64.DecodeEncode(d.value.asBuffer);
  }

  /** A 64-bit integer, time or non-negative unsigned value is written as its
      decimal text, which reads back as the same number. */
  lemma TextSerializeIntegerRoundTrip(d: Data, floatText: real -> seq<byte>)
    requires d.typ == Integer || d.typ == Time || (d.typ == UnsignedInteger && d.value.asInteger >= 0)
    requires INT64_MIN <= d.value.asInteger <= INT64_MAX
    ensures var r := TextSerialize(d, floatText);
            && r.Ok? && r.value.Buffer?
            && Decimal.ParseInt(r.value.bytes) == Some(d.value.asInteger)
  {
    Decimal.Int64TextLength(d.value.asInteger);
    Decimal.ParseIntText(d.value.asInteger);
  }

  /** An object link is written as "<objectId>:<instanceId>", which always fits
      the 11-character scratch buffer. */
  lemma TextSerializeObjectLink(d: Data, floatText: real -> seq<byte>)
    requires d.typ == ObjectLink
    ensures var r := TextSerialize(d, floatText);
            var t := Decimal.NatText(d.value.asObjLink.objectId) + [Decimal.COLON] + Decimal.NatText(d.value.asObjLink.instanceId);
            && r == Ok(Buffer(t))
            && |t| <= PRV_OBJECT_LINK_TEXT_MAX_LEN
  {
    Decimal.ObjLinkTextLength(d.value.asObjLink);
  }

  /** Opaque deserialization followed by opaque serialization gives back the
      payload; an empty payload becomes an entry with an empty value. */
  lemma OpaqueRoundTrip(u: Uri, b: seq<byte>)
    requires u.resourceId != ID_ALL
    ensures var r := OpaqueDeserialize(Some(u), b);
            && r.status == NoError
            && r.entries[0].value.asBuffer == b
            && OpaqueSerialize(r.entries[0]) == Ok(CopyBuffer(b))
  {
  }

  /** Text deserialization followed by text serialization gives back the
      payload: the string entry is copied verbatim. */
  lemma TextRoundTrip(u: Uri, b: seq<byte>, floatText: real -> seq<byte>)
    requires u.resourceId != ID_ALL
    ensures var r := TextDeserialize(Some(u), b);
            && r.status == NoError
            && r.entries[0].value.asBuffer == b
            && TextSerialize(r.entries[0], floatText) == Ok(CopyBuffer(b))
  {
  }
}
